=== FILE: README.md ===
# SchTime: schedule parsing and next-interval computation

This project models the schedule core of tzschedule, a C++ job scheduler. The
modelled code is:

- `SchTime::parse`. It reads a three-field schedule text: second, minute and hour.
  Each field is a comma-separated list of terms: `*`, `*/K`, `A-B` or a single
  value. The result is three `std::bitset` presence maps of widths 60, 60 and 24.
- `SchTime::parse_subtime<N>`, which parses one field.
- `StrUtil::trim_whitespace`, which `parse` uses to clean each field.
- `SchTime::find_ge_of<N>`, which finds the next position that is on in a map.
- `SchTime::next_interval(time_t)`, which gives the number of seconds from a time
  of day to the next time the schedule fires.

Modules:

- `CLib`: the C library behaviour the code relies on.
  - `isspace` in the C locale.
  - `atoi` as glibc implements it on a 64-bit target: `(int) strtol(s, 0, 10)`.
    The value saturates at the bounds of `long` and then wraps to 32 bits.
  - The conversions to `uint8_t` and `int32_t`.
  - Decimal rendering.
- `Split`: `boost::split` with `is_any_of`, the inverse `Join`, and
  `std::string::find`.
- `StrUtil`: the trim, first as a function and then as the source's two-loop method.
- `Bitmap`: presence maps as `seq<bool>`.
- `SchParse`: the parser.
  - A bit set at the map's width ends the parse with the status `OutOfRange`. This
    stands for the `std::out_of_range` that `bitset::set` throws and that `parse`
    does not catch.
  - `ParseWith(text, strict)` takes the value bound as a parameter. `Parse` is the
    source's bound (`<= N`). `ParseStrict` is the intended bound (`<= N - 1`).
- `SchSyntax`: the well-formed schedule language as a datatype. It is used to
  prove that rendering then parsing gives exactly the positions the terms denote.
- `SchNext`: the interval computation.
  - `NextInterval` is the computation as written.
  - `NextFire` and `NextIntervalFixed` are the corrected search. From the
    source's `< 0` branches they take the wrap and the carry: a field with
    nothing left wraps to its first position and carries into the next field.
    They also put the lower fields back to their first position when a higher
    one moves. No branch of the source shows that reset. It follows from reading
    the schedule as "fire at the earliest matching time", which is what both are
    proved to give.
- `SchVectors`: the expressions that the repository's tests parse, and concrete
  intervals.

A time of day stands for the `time_t` start. `mktime(adjusted) - from` is modelled
as `3600 * h + 60 * m + s` minus the start's second of the day, which is what
`mktime` normalises to on a day without a daylight-saving change.

The code of `next_interval` differs from the earliest firing time in two
independent ways.

- The `< 0` branches at source/JobInstance.cpp:214-228 wrap a field that has
  nothing left to its first position and carry into the next field. They never
  run. When no position is found, `find_ge_of` returns `-1` through `uint8_t`,
  which gives 255. The `< 0` checks at source/JobInstance.cpp:214, 220, 226 and
  230 can therefore never be true, and 255 is used as the field value.
- Lower fields are never reset to their first position when a higher field
  moves. The source has no code for this, live or dead. The reset is needed only
  if the schedule is read as "fire at the earliest matching time".

The second difference does not depend on the first. For `* 2 *` from midnight no
field runs out, so the `< 0` branches would not be taken even if they could run.
The code gives 121, while the earliest firing time is 120 seconds on. The test at test/SchTimeTest.cpp:62 asserts 7200, which is
neither. The model follows the code in `NextInterval` and proves the earliest
firing time in `NextIntervalFixed`.

Other branches of the source that cannot run:

- The `+ 86400` branch (source/JobInstance.cpp:236-241). Every field found is at
  least its start and the second is strictly later, so the difference is never
  negative. `NoWrapNoTruncation` proves that this branch and the `int32_t` cast
  change nothing.
- The `catch` (source/JobInstance.cpp:245-248). `find_ge_of` only calls
  `bits.test(i)` for `from <= i < N`, which cannot throw. `FindGe` mirrors this by
  indexing only within the map.

## Model

| member | source | states |
|---|---|---|
| Split.SplitAny | source/JobInstance.cpp:29 | `boost::split` with `is_any_of`: one more piece than there are separators, and no piece contains a separator |
| Split.JoinSplit | source/JobInstance.cpp:29 | splitting on one character and joining the pieces with it gives back the original text, so no character is lost or reordered |
| Split.SplitJoin | source/JobInstance.cpp:70 | separator-free pieces joined with a separator split back into exactly those pieces |
| Split.IndexOf | source/JobInstance.cpp:41 | `find('/')` on a term with a `/`: the position of the first `/` |
| CLib.AtoiDecimal | source/JobInstance.cpp:95 | `atoi` reads back any decimal up to `INT_MAX` exactly, whatever non-digit text follows it |
| CLib.AtoiWithoutDigits | source/JobInstance.cpp:95 | `atoi` of text with no digit after the blanks and optional sign is 0 |
| StrUtil.Trim | source/StrUtil.h:48-56 | the trimmed text is a contiguous slice of the input. Everything cut from either end is `isspace`. The result neither starts nor ends with `isspace`. It is empty exactly when the input is all whitespace |
| StrUtil.TrimWhitespace | source/StrUtil.h:43-59 | the two erase loops leave exactly the trimmed text, and the return value is the number of characters removed |
| StrUtil.TrimIdempotent | source/StrUtil.h:43-59 | trimming an already-trimmed string changes nothing |
| StrUtil.TrimKeepsClean | source/StrUtil.h:49-56 | a string that neither starts nor ends with whitespace is left unchanged |
| SchParse.SetRange | source/JobInstance.cpp:87-90 | after the range loop, exactly the old positions plus `from..to` are on. The loop throws exactly when the range reaches the width, and keeps what it set before that |
| SchParse.SetEvery | source/JobInstance.cpp:55-57 | the step loop turns on exactly the old positions plus the multiples of K past the start |
| SchParse.ApplyTerm | source/JobInstance.cpp:33-103 | a term never clears a position. A term that ends the field successfully leaves every position on. `out_of_range` can only escape when the bound admits the width. An empty term changes nothing |
| SchParse.ParseTerms | source/JobInstance.cpp:31-106 | a field only adds positions, and throws only when the bound admits the width |
| Split.SplitAt | source/JobInstance.cpp:120 | any separator cuts the text in two: the pieces of the whole are the pieces before it followed by the pieces after it |
| SchParse.KeepTrimmed | source/JobInstance.cpp:122-130 | every piece kept is non-empty, has no separator, and neither starts nor ends with whitespace. No more pieces come out than went in |
| SchParse.KeepTrimmedOne | source/JobInstance.cpp:122-130 | one piece is dropped when it is all whitespace, and is otherwise kept as its trim |
| SchParse.KeepTrimmedAppend | source/JobInstance.cpp:122-130 | the trim-and-drop loop works piece by piece: on a concatenation it gives the concatenation of the results, in order |
| SchParse.TokensOfPiece | source/JobInstance.cpp:119-130 | text with no space, tab or newline gives no field when it is all whitespace, and otherwise one field, its trim |
| SchParse.TokensAt | source/JobInstance.cpp:119-130 | a space, tab or newline anywhere cuts the text into two parts whose fields are found independently and come out in order |
| SchParse.TokensLeadingBlank | source/JobInstance.cpp:119-130 | a separator at the front adds no field |
| SchParse.TokensRun | source/JobInstance.cpp:119-130 | a run of two separators gives the same fields as one |
| SchParse.TokensEmpty | source/JobInstance.cpp:119-132 | the text has no field exactly when it is all whitespace, counting `\r`, `\v` and `\f` as well as the separators |
| SchParse.FieldsAmongRuns | source/JobInstance.cpp:119-130 | three words with a separator in front and runs of two separators between them give exactly the three words, trimmed |
| SchParse.ParseWith | source/JobInstance.cpp:112-162 | the maps always have widths 60/60/24. Any field count other than 3 fails with all maps cleared. With 3 fields the outcome is `FieldsOutcome` of the three tokens. Success means no map is empty. The strict bound never throws |
| SchParse.ParseFields | source/JobInstance.cpp:137-161 | `FieldsOutcome`: each map holds what its field set when every earlier field succeeded, and stays cleared otherwise. Nothing is rolled back. The first field that does not succeed gives the status (`false` or the escaping exception). The parse succeeds exactly when all three fields succeed and no map is empty |
| SchParse.StarEndsField | source/JobInstance.cpp:33-51 | `*`, or a star term that ends in its first `/`, turns every position on and ends the field successfully, ignoring the remaining terms |
| SchParse.StarWithoutSlashFails | source/JobInstance.cpp:41-45 | a longer star term with no `/` fails the field and adds nothing |
| SchParse.StepTerm | source/JobInstance.cpp:47-61 | `*/K` with `0 < atoi(K) < N` adds exactly the multiples of K. Any other K fails and adds nothing |
| SchParse.BadRangeFails | source/JobInstance.cpp:67-85 | a `-` term that does not split into two non-empty sides with `0 <= A < B <= cap` fails the field and adds nothing |
| SchParse.BadValueFails | source/JobInstance.cpp:94-99 | a plain term whose `atoi` value lies outside `0..cap` fails the field |
| SchParse.WidthValueThrows | source/JobInstance.cpp:94-102 | a plain term equal to the width, under the source's bound, throws out of the field |
| SchParse.NoDigitsMeansZero | source/JobInstance.cpp:94-102 | a plain term with no digits reads as 0, so it turns on position 0 and the field goes on |
| SchParse.PlainTermApplies | source/JobInstance.cpp:94-102 | any plain term whose `atoi` value is a position the bound admits turns on exactly that position and lets the field go on, whatever else the text holds (`05`, `+5`, ` 5x`) |
| SchParse.StopIgnoresBits | source/JobInstance.cpp:33-103 | whether a term stops its field, and with which status, does not depend on the positions already on |
| SchParse.StopTermEndsField | source/JobInstance.cpp:31-106 | a term that stops its field (fails, throws, or ends it early as a star term) gives the field its status wherever it stands in the list, as long as no earlier term stopped the field |
| SchParse.TermStrictAgrees | source/JobInstance.cpp:80-82 | for one term, the source's bound and the strict bound give the same outcome, except where the source's throws. There the strict bound fails |
| SchParse.TermsStrictAgree | source/JobInstance.cpp:31-106 | the same agreement holds for a whole list of terms |
| SchParse.SubtimeStrictAgrees | source/JobInstance.cpp:24-107 | the same agreement holds for `parse_subtime` |
| SchParse.FieldsStrictAgree | source/JobInstance.cpp:137-161 | the same agreement holds for the three fields together |
| SchParse.ParseStrictAgrees | source/JobInstance.cpp:112-162 | the strict parser returns exactly what `parse` returns whenever `parse` does not throw. Where `parse` throws, the strict parser fails |
| SchSyntax.StepTermApplies | source/JobInstance.cpp:47-64 | a rendered `*/K` with `0 < K < N` adds exactly its denoted positions and lets the field go on |
| SchSyntax.SpanTermApplies | source/JobInstance.cpp:67-103 | a rendered `A-B` with `A < B < N` adds exactly `A..B`, even though it also passes through the single-value check |
| SchSyntax.AtTermApplies | source/JobInstance.cpp:94-103 | a rendered value below N adds exactly that position |
| SchSyntax.RenderedTermApplies | source/JobInstance.cpp:33-103 | every rendered term other than `*` adds exactly its denoted positions and lets the field go on |
| SchSyntax.TermsRoundTrip | source/JobInstance.cpp:31-106 | a list of valid rendered terms parses to the union of their denotations |
| SchSyntax.FieldRoundTrip | source/JobInstance.cpp:24-107 | `parse_subtime` of a rendered valid field succeeds with exactly the denoted positions |
| SchSyntax.TokensOfWords | source/JobInstance.cpp:119-130 | words without whitespace, joined by any one of space, tab or newline, come back from the split-trim-drop step unchanged |
| SchSyntax.DenoteNotEmpty | source/JobInstance.cpp:155 | a valid non-empty field always passes the integrity check |
| SchSyntax.ParseRoundTrip | source/JobInstance.cpp:112-162 | parsing the rendering of any valid three-field schedule succeeds with exactly the positions it denotes, under either bound |
| SchSyntax.SecondFieldKept | source/JobInstance.cpp:137-153 | the second map holds the denotation of the first field whatever the later fields are. A later failure does not roll it back |
| SchNext.FindGe | source/JobInstance.cpp:177-188 | the result is the first position at or after `from` that is on. It is 255 (the `uint8_t` image of `-1`) exactly when there is none |
| SchNext.First | source/JobInstance.cpp:215 | the first position that is on, in a non-empty map |
| SchNext.NextInterval | source/JobInstance.cpp:197-251 | the computation as written always returns a positive number of seconds, at most 3600·255 + 60·255 + 255 |
| SchNext.NoWrapNoTruncation | source/JobInstance.cpp:235-250 | the day-wrap branch and the cast to `int32_t` never change the answer. It is the plain field difference from the start |
| SchNext.AsWrittenLandsOnFiring | source/JobInstance.cpp:209-235 | when all three searches find a position, the answer lands on a firing time later the same day, and it is never earlier than the earliest firing time |
| SchNext.AsWrittenAgrees | source/JobInstance.cpp:209-235 | when the start's hour and minute are on and a later second of the same minute is on, the source's answer is the earliest one |
| SchNext.NextFire | source/JobInstance.cpp:196-251 | the intended search always gives a time of day at which the schedule fires |
| SchNext.NextIntervalFixed | source/JobInstance.cpp:196-251 | the intended interval is -1 exactly when some map is empty. Otherwise it is between 1 and 86400 seconds and lands on a firing time, wrapping into the next day |
| SchNext.NextIntervalFixedEarliest | source/JobInstance.cpp:196-251 | no firing time comes sooner after the start than the intended interval |
| SchNext.NextFireEarliest | source/JobInstance.cpp:196-251 | the intended search finds the earliest firing time strictly after the start |
| SchNext.Wait | source/JobInstance.cpp:236-241 | the wait from one second of the day to another is between 1 and 86400 seconds, and it lands on the target modulo a day |
| SchVectors.ParseAllStars | test/SchTimeTest.cpp:13-16 | `* * *` parses successfully with every position of every map on |
| SchVectors.ParseZeroThreeFour | test/SchTimeTest.cpp:19-20 | `0 3 4` parses successfully, with only second 0, minute 3 and hour 4 on |
| SchVectors.ParseAllZero | test/SchTimeTest.cpp:23-24 | `0 0 0` parses successfully, with only position 0 of each map on |
| SchVectors.ParseTwelveTwentyFour | test/SchTimeTest.cpp:48-49 | `12,24 * *` parses successfully to seconds 12 and 24 with every minute and hour on |
| SchVectors.ParseEvenMinutes | test/SchTimeTest.cpp:54-55 | `* */2 *` parses successfully to the even minutes |
| SchVectors.ParseMinuteTwo | test/SchTimeTest.cpp:59-60 | `* 2 *` parses successfully to minute 2 alone |
| SchVectors.ParseThirdSeconds | test/SchTimeTest.cpp:35-38 | `*/3 * *` parses successfully to the multiples of 3 seconds |
| SchVectors.ListFromMidnight | test/SchTimeTest.cpp:46-51 | from 00:00:00, `12,24 * *` fires after 12 seconds, by both computations |
| SchVectors.StepMinuteFromMidnight | test/SchTimeTest.cpp:54-57 | from 00:00:00, `* */2 *` fires after 1 second, by both computations |
| SchVectors.StepSecondFromMidnight | test/SchTimeTest.cpp:35-40 | from 00:00:00, `*/3 * *` fires after 3 seconds, by both computations |
| SchVectors.CarryKeepsSecond | source/JobInstance.cpp:209-223 | from 00:00:00, `* 2 *` gives 121 as written, but the earliest firing is 120 seconds on |
| SchVectors.NotFoundBecomesField | source/JobInstance.cpp:177-230 | from 01:00:00, `0 0 0` gives 914655 as written (255 used as second and hour), but the earliest firing is 82800 seconds on |
| SchVectors.StepSecondAtMinuteEnd | source/JobInstance.cpp:211-217 | from 00:00:58, `*/3 * *` gives 197 as written, but the earliest firing is 2 seconds on |
| SchVectors.TokensMixedBlanks | source/JobInstance.cpp:119-130 | a tab in front, two spaces and two newlines between fields, and `\r` and `\v` at field ends still give the fields `0`, `3` and `4` |
| SchVectors.ParseSixtyOneFails | source/JobInstance.cpp:94-99 | `61 * *` makes `parse` fail with every map cleared |
| SchVectors.ParseKeepsEarlierField | source/JobInstance.cpp:137-147 | `0 61 *` makes `parse` fail, and the second map still holds position 0 from the field that succeeded |
| SchVectors.RangeToWidthThrows | source/JobInstance.cpp:80-90 | the term `0-60` passes the range check at width 60, and the loop throws on reaching 60. With the bound at 59 the term fails and adds nothing |
| SchVectors.WidthSecondThrows | source/JobInstance.cpp:94-102 | `60 * *` passes the value check and throws from `bitset::set`. The strict parser fails on it instead |

## Left out

- `localtime_r` and `mktime`: the start is given as a time of day. Daylight-saving
  transitions, leap seconds, and the date part of the time are not modelled.
- `SchTime::next_interval()` with no argument reads the clock through `time(NULL)`.
  It is left out, and so is the clock-dependent assertion at
  test/SchTimeTest.cpp:35-40; `StepSecondFromMidnight` fixes the start at midnight instead.
- The `log_err` and `log_debug` calls are not modelled, because they only write to
  the log.
- `SchTime::str`, `StrUtil::str_format`, `convert_to_string`, `trim_lowcase` and
  `UriRegex` are outside the schedule core.
- `JobInstance::init` is outside the schedule core, as are the job executor, thread
  management, task and plugin loading (`SoWrapper`), `Captain`, `setup`,
  `InsaneBind` and SSL setup.
- SchNext.FindGe: requires a map narrower than 255 positions. The source only
  instantiates it for 60 and 24, and a wider map would make 255 a real position.
- CLib.Atoi: the locale is fixed to C, and `errno` is not modelled.
- Characters: a Dafny `char` is a Unicode character, while `std::string` holds
  bytes. For UTF-8 text the behaviour is the same, because no byte of a
  multi-byte character is an ASCII separator, space, digit, sign, `*`, `/` or `-`.

## Findings

| source | as written | input that shows it | evidently intended | confidence | as-written member | corrected member |
|---|---|---|---|---|---|---|
| source/JobInstance.cpp:80-82, 96 | the bound checks reject only values `> N`, so `N` reaches `bitset::set(N)`, which throws `std::out_of_range` out of `parse` | `60 * *`; the term `0-60` (`RangeToWidthThrows`) | values up to `N - 1`; `parse` returns `false` | high; not executed | SchVectors.WidthSecondThrows | SchParse.ParseStrictAgrees |
| source/JobInstance.cpp:209-223 | when a higher field moves forward, the lower fields keep their searched value instead of going back to their first set position | `* 2 *` from 00:00:00 gives 121 | 120, the first firing at 00:02:00 | high; not executed | SchVectors.CarryKeepsSecond | SchNext.NextFireEarliest |
| source/JobInstance.cpp:178-187, 213-230 | the "not found" result `-1` becomes 255 through `uint8_t`, so the `< 0` recovery never runs and 255 is used as the field value | `0 0 0` from 01:00:00 gives 914655 | 82800, midnight the next day | high; not executed | SchVectors.NotFoundBecomesField | SchNext.NextIntervalFixedEarliest |
| source/JobInstance.cpp:211-217 | a second search that runs off the end of the minute does not carry into the minute | `*/3 * *` from 00:00:58 gives 197 | 2, the firing at 00:01:00 | high; not executed | SchVectors.StepSecondAtMinuteEnd | SchNext.NextFireEarliest |

=== FILE: bitmap.dfy ===
/** Fixed-width presence maps standing in for `std::bitset<N>`. */
module Bitmap {

  type Bits = seq<bool>

  function Zeros(n: nat): (b: Bits)
    ensures |b| == n && NoneSet(b)
  {
    seq(n, i => false)
  }

  /** `bitset::set()` with no argument: every position on. */
  function Ones(n: nat): (b: Bits)
    ensures |b| == n && forall i | 0 <= i < n :: b[i]
  {
    seq(n, i => true)
  }

  /** `bitset::none()`. */
  predicate NoneSet(b: Bits) {
    forall i | 0 <= i < |b| :: !b[i]
  }

  /** Every position on in `a` is on in `b`, and both have the same width. */
  predicate Within(a: Bits, b: Bits) {
    |a| == |b| && forall i | 0 <= i < |a| :: a[i] ==> b[i]
  }
}

=== FILE: clib.dfy ===
/**
 The pieces of the C library that the schedule parser leans on: `isspace` in the
 C locale, `atoi` as glibc implements it on an LP64 platform, and the integer
 conversions to `int32_t` and `uint8_t`, all written out over unbounded integers.
 */
module CLib {

  const Int32Min: int := -0x8000_0000
  const Int32Max: int := 0x7FFF_FFFF
  const LongMin: int := -0x8000_0000_0000_0000
  const LongMax: int := 0x7FFF_FFFF_FFFF_FFFF

  /** `isspace` in the C locale: space, \t, \n, \v, \f and \r. */
  predicate IsSpace(c: char) {
    c == ' ' || c == '\t' || c == '\n' || c == '\U{B}' || c == '\U{C}' || c == '\r'
  }

  predicate IsDigit(c: char) {
    '0' <= c <= '9'
  }

  function DigitValue(c: char): (d: nat)
    requires IsDigit(c)
    ensures d < 10
  {
    c as int - '0' as int
  }

  function DigitChar(d: nat): (c: char)
    requires d < 10
    ensures IsDigit(c) && DigitValue(c) == d
  {
    ('0' as int + d) as char
  }

  predicate AllDigits(s: string) {
    forall k | 0 <= k < |s| :: IsDigit(s[k])
  }

  /** The number of `isspace` characters at the front of `s`. */
  function LeadingSpaces(s: string): (n: nat)
    ensures n <= |s|
    ensures forall k | 0 <= k < n :: IsSpace(s[k])
    ensures n < |s| ==> !IsSpace(s[n])
  {
    if |s| == 0 || !IsSpace(s[0]) then 0 else 1 + LeadingSpaces(s[1..])
  }

  /** The length of the run of decimal digits at the front of `s`. */
  function DigitRun(s: string): (n: nat)
    ensures n <= |s|
    ensures AllDigits(s[..n])
    ensures n < |s| ==> !IsDigit(s[n])
  {
    if |s| == 0 || !IsDigit(s[0]) then 0
    else
      var n := 1 + DigitRun(s[1..]);
      assert s[..n] == [s[0]] + s[1..][..n - 1];
      n
  }

  /** The value of a string of decimal digits, most significant first. */
  function DecValue(s: string): nat
    requires AllDigits(s)
  {
    if |s| == 0 then 0 else 10 * DecValue(s[..|s| - 1]) + DigitValue(s[|s| - 1])
  }

  /** The shortest decimal rendering of `n`, as `std::to_string` or `printf("%d")` writes it. */
  function Decimal(n: nat): (s: string)
    ensures |s| > 0 && AllDigits(s)
  {
    if n < 10 then [DigitChar(n)] else Decimal(n / 10) + [DigitChar(n % 10)]
  }

  /** Conversion of an integer to `int32_t`: reduction modulo 2^32 into [-2^31, 2^31). */
  function Int32(x: int): (r: int)
    ensures Int32Min <= r <= Int32Max
    ensures (r - x) % 0x1_0000_0000 == 0
  {
    (x - Int32Min) % 0x1_0000_0000 + Int32Min
  }

  /** Conversion of an integer to `uint8_t`: reduction modulo 256. */
  function Uint8(x: int): (r: int)
    ensures 0 <= r < 256
    ensures (r - x) % 256 == 0
  {
    x % 256
  }

  /** `strtol` saturates at the bounds of a 64-bit `long`. */
  function ClampLong(x: int): (r: int)
    ensures LongMin <= r <= LongMax
    ensures LongMin <= x <= LongMax ==> r == x
  {
    if x > LongMax then LongMax else if x < LongMin then LongMin else x
  }

  /** The value of the run of digits at the front of `u`; 0 when there is none. */
  function Magnitude(u: string): nat {
    DecValue(u[..DigitRun(u)])
  }

  /** An optional sign followed by digits, as `strtol` reads it once the blanks are skipped. */
  function SignedValue(t: string): int {
    if |t| > 0 && t[0] == '-' then -(Magnitude(t[1..]) as int)
    else if |t| > 0 && t[0] == '+' then Magnitude(t[1..])
    else Magnitude(t)
  }

  /**
   `atoi(s)`: skip leading `isspace`, read an optional sign, then the longest run of
   decimal digits; no digits at all gives 0. glibc computes it as `(int) strtol(s, 0, 10)`,
   so the value saturates at the `long` bounds and is then reduced to 32 bits.
   */
  function Atoi(s: string): int {
    Int32(ClampLong(SignedValue(s[LeadingSpaces(s)..])))
  }

  lemma Int32Identity(x: int)
    requires Int32Min <= x <= Int32Max
    ensures Int32(x) == x
  {
  }

  /** Without a digit after the optional blanks and sign, `atoi` yields 0. */
  lemma AtoiWithoutDigits(s: string)
    requires var t := s[LeadingSpaces(s)..];
             var u := if |t| > 0 && (t[0] == '-' || t[0] == '+') then t[1..] else t;
             |u| == 0 || !IsDigit(u[0])
    ensures Atoi(s) == 0
  {
    var t := s[LeadingSpaces(s)..];
    var u := if |t| > 0 && (t[0] == '-' || t[0] == '+') then t[1..] else t;
    assert DigitRun(u) == 0;
    assert u[..0] == "";
    assert Magnitude(u) == 0;
  }

  lemma {:induction false} DecimalValue(n: nat)
    ensures DecValue(Decimal(n)) == n
  {
    if n >= 10 {
      var s := Decimal(n);
      DecimalValue(n / 10);
      assert s[..|s| - 1] == Decimal(n / 10);
    }
  }

  lemma DecimalMagnitude(n: nat, rest: string)
    requires |rest| == 0 || !IsDigit(rest[0])
    ensures Magnitude(Decimal(n) + rest) == n
  {
    var d := Decimal(n);
    var s := d + rest;
    assert forall k | 0 <= k < |d| :: s[k] == d[k];
    assert |rest| > 0 ==> s[|d|] == rest[0];
    assert DigitRun(s) == |d|;
    assert s[..DigitRun(s)] == d;
    DecimalValue(n);
  }

  /**
   `atoi` reads back a decimal rendering of any value of `int` range, whatever
   non-digit text follows it.
   */
  lemma AtoiDecimal(n: nat, rest: string)
    requires n <= Int32Max
    requires |rest| == 0 || !IsDigit(rest[0])
    ensures Atoi(Decimal(n) + rest) == n
  {
    var d := Decimal(n);
    var s := d + rest;
    assert s[0] == d[0];
    assert LeadingSpaces(s) == 0;
    assert s[0..] == s;
    DecimalMagnitude(n, rest);
    assert SignedValue(s) == n;
    Int32Identity(n);
  }
}

=== FILE: schnext.dfy ===
/**
 `SchTime::find_ge_of<N>` and `SchTime::next_interval(time_t)`: the number of
 seconds from a wall-clock time to the next time the schedule fires.

 The clock is the broken-down local time of day (hour, minute, second) that
 `localtime_r` produces; `mktime` of the adjusted fields minus the start is the
 field arithmetic `3600 * h + 60 * m + s` taken relative to the start, which is
 what `mktime` normalises to on a day without a daylight-saving change.

 `NextInterval` is the computation as the source writes it. `NextFire` and
 `NextIntervalFixed` are the corrected search. The wrap and carry come from the
 source's `< 0` branches: a field with nothing left wraps to its first position
 and carries into the next field. Putting the lower fields back to their first
 position when a higher one moves has no counterpart in the source; it follows
 from reading the schedule as firing at the earliest matching time, and both are
 proved to find that time.
 */
module SchNext {
  import opened CLib
  import opened Bitmap
  import opened SchParse

  /** `find_ge_of` returns `uint8_t`, so its "not found" value `-1` arrives as 255. */
  const NotFound: int := 255

  /** Seconds in a day. */
  const Day: int := 86400

  /**
   The first position at or after `from` whose bit is on, or `NotFound` when there
   is none (in particular when `from` is already past the end).
   */
  function FindGe(bits: Bits, from: nat): (r: int)
    requires |bits| < 255
    ensures r == NotFound || (from <= r < |bits| && bits[r])
    ensures r != NotFound ==> forall i | from <= i < r :: !bits[i]
    ensures r == NotFound <==> forall i | from <= i < |bits| :: !bits[i]
    decreases |bits| - from
  {
    if from >= |bits| then
      assert Uint8(-1) == NotFound;
      Uint8(-1)
    else if bits[from] then from
    else FindGe(bits, from + 1)
  }

  /** The first position that is on, in a map with at least one. */
  function First(bits: Bits): (r: nat)
    requires |bits| < 255 && !NoneSet(bits)
    ensures r < |bits| && bits[r]
    ensures forall i | 0 <= i < r :: !bits[i]
  {
    FindGe(bits, 0)
  }

  // ---------------------------------------------------------------------------
  // Time of day

  datatype Clock = Clock(h: nat, m: nat, s: nat)

  predicate InDay(c: Clock) {
    c.h < 24 && c.m < 60 && c.s < 60
  }

  function SecondOfDay(c: Clock): nat {
    3600 * c.h + 60 * c.m + c.s
  }

  /** `a` is strictly earlier than `b` in (hour, minute, second) order. */
  predicate Before(a: Clock, b: Clock) {
    a.h < b.h || (a.h == b.h && (a.m < b.m || (a.m == b.m && a.s < b.s)))
  }

  /** The schedule fires at `c`: its hour, minute and second are all on. */
  predicate Fires(sch: Schedule, c: Clock)
    requires WellSized(sch) && InDay(c)
  {
    sch.hour[c.h] && sch.min[c.m] && sch.sec[c.s]
  }

  /** Seconds from second `from` of a day to the next occurrence of second `to`, strictly later. */
  function Wait(from: int, to: int): (d: int)
    requires 0 <= from < Day && 0 <= to < Day
    ensures 1 <= d <= Day
    ensures (from + d) % Day == to
  {
    if to > from then to - from else to - from + Day
  }

  // ---------------------------------------------------------------------------
  // The source's computation

  /**
   `next_interval(from)` as written: the next second at or after `s + 1`, the next
   minute at or after `m`, the next hour at or after `h`, each searched on its own
   and without turning the lower fields back to their first value, and a "not found"
   of 255 taken as the field value itself. The `< 0` branches after each search
   never run, because the search returns an unsigned byte; the `+ 86400` branch
   never runs either, because every field is at least its start and the second
   strictly more. The 64-bit difference is then cast to `int32_t`.
   */
  function NextInterval(sch: Schedule, c: Clock): (r: int)
    requires WellSized(sch) && InDay(c)
    ensures 1 <= r <= 3600 * NotFound + 60 * NotFound + NotFound
  {
    var s := FindGe(sch.sec, c.s + 1);
    var m := FindGe(sch.min, c.m);
    var h := FindGe(sch.hour, c.h);
    var next := 3600 * h + 60 * m + s - SecondOfDay(c);
    var wrapped := if next < 0 then next + Day else next;
    Int32Identity(wrapped);
    Int32(wrapped)
  }

  /**
   Neither the day-wrap branch nor the cast to `int32_t` changes anything: the
   answer is the plain difference between the found fields and the start.
   */
  lemma NoWrapNoTruncation(sch: Schedule, c: Clock)
    requires WellSized(sch) && InDay(c)
    ensures NextInterval(sch, c)
            == 3600 * FindGe(sch.hour, c.h) + 60 * FindGe(sch.min, c.m) + FindGe(sch.sec, c.s + 1) - SecondOfDay(c)
  {
    var next := 3600 * FindGe(sch.hour, c.h) + 60 * FindGe(sch.min, c.m) + FindGe(sch.sec, c.s + 1) - SecondOfDay(c);
    assert 0 < next <= Int32Max;
    Int32Identity(next);
  }

  /**
   When all three searches succeed, the source's answer lands on a firing time
   later the same day, and it is never earlier than the earliest firing time.
   */
  lemma AsWrittenLandsOnFiring(sch: Schedule, c: Clock)
    requires Valid(sch) && InDay(c)
    requires FindGe(sch.sec, c.s + 1) != NotFound
    requires FindGe(sch.min, c.m) != NotFound && FindGe(sch.hour, c.h) != NotFound
    ensures SecondOfDay(c) + NextInterval(sch, c) < Day
    ensures exists d :: InDay(d) && Fires(sch, d) && SecondOfDay(d) == SecondOfDay(c) + NextInterval(sch, c)
    ensures NextIntervalFixed(sch, c) <= NextInterval(sch, c)
  {
    var d := Clock(FindGe(sch.hour, c.h), FindGe(sch.min, c.m), FindGe(sch.sec, c.s + 1));
    NoWrapNoTruncation(sch, c);
    assert SecondOfDay(d) == SecondOfDay(c) + NextInterval(sch, c);
    NextFireEarliest(sch, c, d);
  }

  /**
   When the start's hour and minute are on and `s` is the next second on after the
   start's, both computations answer `s` minus the start's second.
   */
  lemma AsWrittenAgrees(sch: Schedule, c: Clock, s: nat)
    requires WellSized(sch) && InDay(c)
    requires sch.hour[c.h] && sch.min[c.m]
    requires c.s < s < SecWidth && sch.sec[s]
    requires forall i | c.s < i < s :: !sch.sec[i]
    ensures NextInterval(sch, c) == s - c.s
    ensures NextIntervalFixed(sch, c) == s - c.s
  {
    SameMinuteFound(sch, c, s);
    NoWrapNoTruncation(sch, c);
    assert Valid(sch);
    assert NextFire(sch, c) == Clock(c.h, c.m, s);
  }

  lemma SameMinuteFound(sch: Schedule, c: Clock, s: nat)
    requires WellSized(sch) && InDay(c)
    requires sch.hour[c.h] && sch.min[c.m]
    requires c.s < s < SecWidth && sch.sec[s]
    requires forall i | c.s < i < s :: !sch.sec[i]
    ensures FindGe(sch.sec, c.s + 1) == s
    ensures FindGe(sch.min, c.m) == c.m && FindGe(sch.hour, c.h) == c.h
  {
  }

  // ---------------------------------------------------------------------------
  // The earliest firing time

  /**
   The next firing time after `c`: a later second in the same minute, else the
   first second of a later minute in the same hour, else the first minute and
   second of a later hour, else the first firing time of the next day.
   */
  function NextFire(sch: Schedule, c: Clock): (r: Clock)
    requires Valid(sch) && InDay(c)
    ensures InDay(r) && Fires(sch, r)
  {
    var s1 := FindGe(sch.sec, c.s + 1);
    var m1 := FindGe(sch.min, c.m + 1);
    var h1 := FindGe(sch.hour, c.h + 1);
    if sch.hour[c.h] && sch.min[c.m] && s1 != NotFound then Clock(c.h, c.m, s1)
    else if sch.hour[c.h] && m1 != NotFound then Clock(c.h, m1, First(sch.sec))
    else if h1 != NotFound then Clock(h1, First(sch.min), First(sch.sec))
    else Clock(First(sch.hour), First(sch.min), First(sch.sec))
  }

  /**
   The corrected interval: -1 when a map has no position on
   (nothing ever fires), else the seconds to the earliest firing time strictly after
   the start, wrapping into the next day.
   */
  function NextIntervalFixed(sch: Schedule, c: Clock): (r: int)
    requires WellSized(sch) && InDay(c)
    ensures r == -1 <==> !Valid(sch)
    ensures r != -1 ==> 1 <= r <= Day
    ensures r != -1 ==> exists d :: InDay(d) && Fires(sch, d) && SecondOfDay(d) == (SecondOfDay(c) + r) % Day
  {
    if !Valid(sch) then -1
    else
      var t := NextFire(sch, c);
      assert SecondOfDay(t) < Day;
      Wait(SecondOfDay(c), SecondOfDay(t))
  }

  /** No firing time comes sooner after the start than the fixed interval. */
  lemma NextIntervalFixedEarliest(sch: Schedule, c: Clock, d: Clock)
    requires Valid(sch) && InDay(c) && InDay(d) && Fires(sch, d)
    ensures NextIntervalFixed(sch, c) <= Wait(SecondOfDay(c), SecondOfDay(d))
  {
    NextFireEarliest(sch, c, d);
  }

  /** Seconds of the day follow (hour, minute, second) order. */
  lemma SecondOfDayOrder(a: Clock, b: Clock)
    requires InDay(a) && InDay(b)
    ensures SecondOfDay(a) < SecondOfDay(b) <==> Before(a, b)
    ensures SecondOfDay(a) == SecondOfDay(b) <==> a == b
  {
  }

  /**
   A target later than the start is at least as near as a firing time `d` exactly
   when `d` is not strictly between the start and the target.
   */
  lemma WaitLater(from: int, t: int, d: int)
    requires 0 <= from < t < Day && 0 <= d < Day
    requires from < d ==> t <= d
    ensures Wait(from, t) <= Wait(from, d)
  {
  }

  /** `NextFire` is the earliest firing time strictly after the start. */
  lemma NextFireEarliest(sch: Schedule, c: Clock, d: Clock)
    requires Valid(sch) && InDay(c) && InDay(d) && Fires(sch, d)
    ensures Wait(SecondOfDay(c), SecondOfDay(NextFire(sch, c))) <= Wait(SecondOfDay(c), SecondOfDay(d))
  {
    var s1 := FindGe(sch.sec, c.s + 1);
    var m1 := FindGe(sch.min, c.m + 1);
    var h1 := FindGe(sch.hour, c.h + 1);
    var t := NextFire(sch, c);
    if sch.hour[c.h] && sch.min[c.m] && s1 != NotFound {
      if Before(c, d) { SameMinuteFirst(sch, c, d); }
      LaterTarget(c, t, d);
    } else if sch.hour[c.h] && m1 != NotFound {
      if Before(c, d) { SameHourFirst(sch, c, d); }
      LaterTarget(c, t, d);
    } else if h1 != NotFound {
      if Before(c, d) { LaterHourFirst(sch, c, d); }
      LaterTarget(c, t, d);
    } else {
      NothingLater(sch, c, d);
      NothingLater(sch, c, t);
      FirstOfDay(sch, d);
      NextDayTarget(c, t, d);
    }
  }

  /**
   A target later the same day is at least as near as any firing time that does
   not lie strictly between the start and the target.
   */
  lemma LaterTarget(c: Clock, t: Clock, d: Clock)
    requires InDay(c) && InDay(t) && InDay(d)
    requires Before(c, t) && (Before(c, d) ==> !Before(d, t))
    ensures Wait(SecondOfDay(c), SecondOfDay(t)) <= Wait(SecondOfDay(c), SecondOfDay(d))
  {
    SecondOfDayOrder(c, t);
    SecondOfDayOrder(c, d);
    SecondOfDayOrder(d, t);
    WaitLater(SecondOfDay(c), SecondOfDay(t), SecondOfDay(d));
  }

  /**
   When nothing fires after the start on the same day, the first firing time of
   the day, reached on the next day, is at least as near as any other.
   */
  lemma NextDayTarget(c: Clock, t: Clock, d: Clock)
    requires InDay(c) && InDay(t) && InDay(d)
    requires !Before(c, t) && !Before(c, d) && !Before(d, t)
    ensures Wait(SecondOfDay(c), SecondOfDay(t)) <= Wait(SecondOfDay(c), SecondOfDay(d))
  {
    SecondOfDayOrder(c, t);
    SecondOfDayOrder(c, d);
    SecondOfDayOrder(d, t);
  }

  /** First case: a firing time after the start is not before the later second of the start's minute. */
  lemma SameMinuteFirst(sch: Schedule, c: Clock, d: Clock)
    requires Valid(sch) && InDay(c) && InDay(d) && Fires(sch, d)
    requires sch.hour[c.h] && sch.min[c.m] && FindGe(sch.sec, c.s + 1) != NotFound
    requires Before(c, d)
    ensures !Before(d, Clock(c.h, c.m, FindGe(sch.sec, c.s + 1)))
  {
  }

  /** Second case: the start's minute has no later second on, but a later minute is on. */
  lemma SameHourFirst(sch: Schedule, c: Clock, d: Clock)
    requires Valid(sch) && InDay(c) && InDay(d) && Fires(sch, d)
    requires !(sch.min[c.m] && FindGe(sch.sec, c.s + 1) != NotFound)
    requires sch.hour[c.h] && FindGe(sch.min, c.m + 1) != NotFound
    requires Before(c, d)
    ensures !Before(d, Clock(c.h, FindGe(sch.min, c.m + 1), First(sch.sec)))
  {
  }

  /** Third case: nothing later is on within the start's hour, but a later hour is on. */
  lemma LaterHourFirst(sch: Schedule, c: Clock, d: Clock)
    requires Valid(sch) && InDay(c) && InDay(d) && Fires(sch, d)
    requires !(sch.hour[c.h] && sch.min[c.m] && FindGe(sch.sec, c.s + 1) != NotFound)
    requires !(sch.hour[c.h] && FindGe(sch.min, c.m + 1) != NotFound)
    requires FindGe(sch.hour, c.h + 1) != NotFound
    requires Before(c, d)
    ensures !Before(d, Clock(FindGe(sch.hour, c.h + 1), First(sch.min), First(sch.sec)))
  {
  }

  /** Fourth case: no firing time lies strictly after the start on the same day. */
  lemma NothingLater(sch: Schedule, c: Clock, d: Clock)
    requires Valid(sch) && InDay(c) && InDay(d) && Fires(sch, d)
    requires !(sch.hour[c.h] && sch.min[c.m] && FindGe(sch.sec, c.s + 1) != NotFound)
    requires !(sch.hour[c.h] && FindGe(sch.min, c.m + 1) != NotFound)
    requires FindGe(sch.hour, c.h + 1) == NotFound
    ensures !Before(c, d)
  {
  }

  /** The first hour, minute and second together are the day's first firing time. */
  lemma FirstOfDay(sch: Schedule, d: Clock)
    requires Valid(sch) && InDay(d) && Fires(sch, d)
    ensures !Before(d, Clock(First(sch.hour), First(sch.min), First(sch.sec)))
  {
  }
}

=== FILE: schparse.dfy ===
/**
 `SchTime::parse_subtime<N>` and `SchTime::parse`: the three-field schedule text
 (second, minute, hour) turned into three presence maps of widths 60, 60 and 24.

 The source checks the numbers of range and single-value terms against
 `max_val = N` and then calls `bitset::set`, which throws `std::out_of_range` for
 the position N. The largest value those checks admit is the parameter `cap`
 here: the source's own parser passes `cap = N`, the strict variant `cap = N - 1`.
 */
module SchParse {
  import opened CLib
  import opened Split
  import opened StrUtil
  import opened Bitmap

  /** How a parse ends: `true`, `false`, or an escaping `std::out_of_range`. */
  datatype Status = Ok | Fail | OutOfRange

  /** After one comma term: carry on with these bits, or stop the field with a status. */
  datatype Step = Next(bits: Bits) | Stop(status: Status, bits: Bits)

  /** The outcome of one field and the bits it left in the store. */
  datatype Field = Field(status: Status, bits: Bits)

  /** The three presence maps of `SchTime`. */
  datatype Schedule = Schedule(sec: Bits, min: Bits, hour: Bits)

  datatype Parsed = Parsed(status: Status, sch: Schedule)

  const SecWidth: nat := 60
  const MinWidth: nat := 60
  const HourWidth: nat := 24

  /** The field separators `parse` splits on. */
  const Blanks: set<char> := {' ', '\t', '\n'}

  predicate WellSized(sch: Schedule) {
    |sch.sec| == SecWidth && |sch.min| == MinWidth && |sch.hour| == HourWidth
  }

  /** What a successful parse guarantees: every map has a position on. */
  predicate Valid(sch: Schedule) {
    WellSized(sch) && !NoneSet(sch.sec) && !NoneSet(sch.min) && !NoneSet(sch.hour)
  }

  function Cleared(): Schedule {
    Schedule(Zeros(SecWidth), Zeros(MinWidth), Zeros(HourWidth))
  }

  // ---------------------------------------------------------------------------
  // Bit setting

  /** `bitset::set(pos)`. */
  function SetBit(b: Bits, pos: int): Step {
    if 0 <= pos < |b| then Next(b[pos := true]) else Stop(OutOfRange, b)
  }

  /**
   The loop `while (from <= to) store.set(from++)`: it turns on `from..to` and
   throws as soon as it reaches the width, keeping what it already set.
   */
  function SetRange(b: Bits, from: nat, to: int): (r: Step)
    decreases |b| - from
    ensures |r.bits| == |b|
    ensures forall i | 0 <= i < |b| :: r.bits[i] == (b[i] || from <= i <= to)
    ensures r.Stop? <==> from <= to && to >= |b|
    ensures r.Stop? ==> r.status == OutOfRange
  {
    if from > to then Next(b)
    else if from >= |b| then Stop(OutOfRange, b)
    else SetRange(b[from := true], from + 1, to)
  }

  lemma ModUnique(y: int, a: int, k: int, r: int)
    requires k > 0 && 0 <= r < k && y == a * k + r
    ensures y % k == r
  {
    var q, r' := y / k, y % k;
    var d := a - q;
    assert d * k == r' - r;
    if d >= 1 {
      MulAtLeast(d, k);
      assert false;
    } else if d <= -1 {
      MulAtLeast(-d, k);
      assert false;
    }
  }

  lemma {:induction false} MulAtLeast(m: int, k: int)
    requires m >= 1 && k > 0
    ensures m * k >= k && (-m) * k <= -k
    decreases m
  {
    if m > 1 {
      MulAtLeast(m - 1, k);
      assert m * k == (m - 1) * k + k;
    }
  }

  lemma ModShift(x: int, k: int)
    requires k > 0
    ensures (x - k) % k == x % k
  {
    var q, r := x / k, x % k;
    assert x == q * k + r;
    assert x - k == (q - 1) * k + r;
    ModUnique(x - k, q - 1, k, r);
  }

  /**
   The loop `for (j = start; j < N; j += k) store.set(j)`: it turns on exactly the
   positions at or after `start` that lie a multiple of `k` beyond it.
   */
  function SetEvery(b: Bits, k: int, start: nat): (r: Bits)
    requires k > 0
    decreases |b| - start
    ensures |r| == |b|
    ensures forall i | 0 <= i < |b| :: r[i] == (b[i] || (start <= i && (i - start) % k == 0))
  {
    if start >= |b| then b
    else
      var r := SetEvery(b[start := true], k, start + k);
      assert forall i | 0 <= i < |b| :: r[i] == (b[i] || (start <= i && (i - start) % k == 0)) by {
        forall i | 0 <= i < |b|
          ensures r[i] == (b[i] || (start <= i && (i - start) % k == 0))
        {
          if start < i < start + k {
            ModUnique(i - start, 0, k, i - start);
          } else if i >= start + k {
            ModShift(i - start, k);
          }
        }
      }
      r
  }

  // ---------------------------------------------------------------------------
  // One comma term

  /** A term that contains a star: the star alone, a star and a slash with or without a step K after it, or a malformed star term. */
  function StarTerm(term: string, n: nat, b: Bits): (r: Step)
    requires '*' in term && |b| == n
  {
    if |term| == 1 then Stop(Ok, Ones(n))
    else if '/' !in term then Stop(Fail, b)
    else
      var step := term[IndexOf(term, '/') + 1..];
      if |step| == 0 then Stop(Ok, Ones(n))
      else
        var k := Atoi(step);
        if 0 < k < n then Next(SetEvery(b, k, 0)) else Stop(Fail, b)
  }

  /** A term that contains `-`: exactly two non-empty sides, `0 <= A < B <= cap`. */
  function RangeTerm(term: string, n: nat, cap: int, b: Bits): (r: Step)
    requires |b| == n
  {
    var parts := SplitAny(term, {'-'});
    if |parts| != 2 || |parts[0]| == 0 || |parts[1]| == 0 then Stop(Fail, b)
    else
      var from, to := Atoi(parts[0]), Atoi(parts[1]);
      if from < 0 || to < 0 || from > cap || to > cap || from >= to then Stop(Fail, b)
      else SetRange(b, from, to)
  }

  /** The single-value check run on every non-empty term without `*`: `0 <= atoi(term) <= cap`. */
  function ValueTerm(term: string, n: nat, cap: int, b: Bits): (r: Step)
    requires |b| == n
  {
    var v := Atoi(term);
    if v < 0 || v > cap then Stop(Fail, b) else SetBit(b, v)
  }

  /**
   One comma term. A star term ends the field or continues it; any other term
   goes through the range check when it has a `-`, and then, unless that stopped
   the field, through the single-value check when it is non-empty. Nothing is
   ever cleared, success can only end a field early with every position on, and
   `std::out_of_range` can only escape when the checks admit the width itself.
   */
  function ApplyTerm(term: string, n: nat, cap: int, b: Bits): (r: Step)
    requires |b| == n
    ensures Within(b, r.bits)
    ensures r.Stop? && r.status == Ok ==> r.bits == Ones(n)
    ensures r.Stop? && r.status == OutOfRange ==> cap >= n
    ensures term == "" ==> r == Next(b)
  {
    if '*' in term then StarTerm(term, n, b)
    else
      var ranged := if '-' in term then RangeTerm(term, n, cap, b) else Next(b);
      if ranged.Stop? || |term| == 0 then ranged
      else ValueTerm(term, n, cap, ranged.bits)
  }

  /** The loop over the comma pieces of one field. */
  function ParseTerms(terms: seq<string>, n: nat, cap: int, b: Bits): (r: Field)
    requires |b| == n
    ensures Within(b, r.bits)
    ensures r.status == OutOfRange ==> cap >= n
  {
    if |terms| == 0 then Field(Ok, b)
    else
      match ApplyTerm(terms[0], n, cap, b)
      case Stop(status, bits) => Field(status, bits)
      case Next(bits) => ParseTerms(terms[1..], n, cap, bits)
  }

  /** `parse_subtime<N>(text, store)`. */
  function ParseSubtime(text: string, n: nat, cap: int, b: Bits): (r: Field)
    requires |b| == n
  {
    ParseTerms(SplitAny(text, {','}), n, cap, b)
  }

  // ---------------------------------------------------------------------------
  // The whole expression

  /** Pieces of a split on the separators: none contains one. */
  predicate Pieces(ps: seq<string>) {
    forall j | 0 <= j < |ps| :: NoneOf(ps[j], Blanks)
  }

  /** Trim every piece and drop the ones that end up empty. */
  function KeepTrimmed(ps: seq<string>): (r: seq<string>)
    requires Pieces(ps)
    ensures forall j | 0 <= j < |r| :: |r[j]| > 0 && NoneOf(r[j], Blanks)
    ensures forall j | 0 <= j < |r| :: !IsSpace(r[j][0]) && !IsSpace(r[j][|r[j]| - 1])
    ensures |r| <= |ps|
  {
    if |ps| == 0 then []
    else
      var t := Trim(ps[0]);
      assert NoneOf(t, Blanks) by {
        var lo := LeadingSpaces(ps[0]);
        assert NoneOf(ps[0], Blanks);
        assert t == ps[0][lo..lo + |t|];
        assert forall k | 0 <= k < |t| :: t[k] == ps[0][lo + k];
      }
      (if |t| == 0 then [] else [t]) + KeepTrimmed(ps[1..])
  }

  /** What one piece contributes: its trim, or nothing when that is empty. */
  function KeepTrimmedHead(p: string): seq<string> {
    var t := Trim(p);
    if |t| == 0 then [] else [t]
  }

  /** The fields of the text: split on space, tab and newline, trimmed, empties dropped. */
  function Tokens(text: string): seq<string> {
    KeepTrimmed(SplitAny(text, Blanks))
  }

  /** A piece on its own is dropped when it is all whitespace, and otherwise kept trimmed. */
  lemma KeepTrimmedOne(p: string)
    requires NoneOf(p, Blanks)
    ensures KeepTrimmed([p]) == if AllSpace(p) then [] else [Trim(p)]
  {
    assert [p][1..] == [];
  }

  /** Trimming and dropping goes piece by piece, so it distributes over concatenation. */
  lemma {:induction false} KeepTrimmedAppend(a: seq<string>, b: seq<string>)
    requires Pieces(a)
    requires Pieces(b)
    ensures Pieces(a + b)
    ensures KeepTrimmed(a + b) == KeepTrimmed(a) + KeepTrimmed(b)
    decreases |a|
  {
    PiecesAppend(a, b);
    if |a| == 0 {
      assert a + b == b;
    } else {
      var head := KeepTrimmedHead(a[0]);
      PiecesAppend(a[1..], b);
      calc {
        KeepTrimmed(a + b);
      == { assert (a + b)[0] == a[0] && (a + b)[1..] == a[1..] + b; KeepTrimmedCons(a + b); }
        head + KeepTrimmed(a[1..] + b);
      == { KeepTrimmedAppend(a[1..], b); }
        head + (KeepTrimmed(a[1..]) + KeepTrimmed(b));
      == { AppendAssoc(head, KeepTrimmed(a[1..]), KeepTrimmed(b)); }
        (head + KeepTrimmed(a[1..])) + KeepTrimmed(b);
      == { KeepTrimmedCons(a); }
        KeepTrimmed(a) + KeepTrimmed(b);
      }
    }
  }

  lemma PiecesAppend(a: seq<string>, b: seq<string>)
    requires Pieces(a)
    requires Pieces(b)
    ensures Pieces(a + b)
  {
    var ab := a + b;
    forall j | 0 <= j < |ab| ensures NoneOf(ab[j], Blanks) {
      if j >= |a| {
        assert ab[j] == b[j - |a|];
      }
    }
  }

  lemma KeepTrimmedCons(ps: seq<string>)
    requires |ps| > 0 && Pieces(ps)
    ensures KeepTrimmed(ps) == KeepTrimmedHead(ps[0]) + KeepTrimmed(ps[1..])
  {
  }

  /** Text without a space, tab or newline is one piece: no field when it is all whitespace, otherwise its trim. */
  lemma TokensOfPiece(p: string)
    requires NoneOf(p, Blanks)
    ensures Tokens(p) == if AllSpace(p) then [] else [Trim(p)]
  {
    PieceAlone(p, Blanks);
    KeepTrimmedOne(p);
  }

  /** Any space, tab or newline cuts the text into two parts whose fields are found independently. */
  lemma TokensAt(a: string, c: char, b: string)
    requires c in Blanks
    ensures Tokens(a + [c] + b) == Tokens(a) + Tokens(b)
  {
    SplitAt(a, c, b, Blanks);
    KeepTrimmedAppend(SplitAny(a, Blanks), SplitAny(b, Blanks));
  }

  /** A run of separators counts as one: a second separator next to the first adds no field. */
  lemma TokensRun(a: string, c: char, d: char, b: string)
    requires c in Blanks && d in Blanks
    ensures Tokens(a + [c, d] + b) == Tokens(a + [c] + b)
  {
    calc {
      Tokens(a + [c, d] + b);
    == { assert a + [c, d] + b == a + [c] + ([d] + b); }
      Tokens(a + [c] + ([d] + b));
    == { TokensAt(a, c, [d] + b); }
      Tokens(a) + Tokens([d] + b);
    == { TokensLeadingBlank(d, b); }
      Tokens(a) + Tokens(b);
    == { TokensAt(a, c, b); }
      Tokens(a + [c] + b);
    }
  }

  /** A separator at the very front adds no field. */
  lemma TokensLeadingBlank(d: char, b: string)
    requires d in Blanks
    ensures Tokens([d] + b) == Tokens(b)
  {
    var e: string := [];
    assert e + [d] + b == [d] + b;
    TokensAt(e, d, b);
    TokensOfPiece(e);
  }

  /**
   Three words, none all whitespace, with a separator in front and runs of two
   separators between them: the fields are the three words, trimmed.
   */
  lemma FieldsAmongRuns(w0: string, w1: string, w2: string, s0: char, s1: char, s2: char, s3: char, s4: char)
    requires NoneOf(w0, Blanks) && NoneOf(w1, Blanks) && NoneOf(w2, Blanks)
    requires !AllSpace(w0) && !AllSpace(w1) && !AllSpace(w2)
    requires s0 in Blanks && s1 in Blanks && s2 in Blanks && s3 in Blanks && s4 in Blanks
    ensures Tokens([s0] + w0 + [s1, s2] + w1 + [s3, s4] + w2) == [Trim(w0), Trim(w1), Trim(w2)]
  {
    var tail := w1 + [s3, s4] + w2;
    assert [s0] + w0 + [s1, s2] + w1 + [s3, s4] + w2 == [s0] + (w0 + [s1, s2] + tail) by {
      Regroup([s0], w0, [s1, s2], w1, [s3, s4], w2);
    }
    LeadThenWord(s0, w0, s1, s2, tail);
    WordRunPiece(w1, s3, s4, w2);
  }

  /** A separator, a word and a run of two separators: the word's trim, then the fields of the rest. */
  lemma LeadThenWord(s0: char, w: string, c: char, d: char, rest: string)
    requires NoneOf(w, Blanks) && !AllSpace(w) && s0 in Blanks && c in Blanks && d in Blanks
    ensures Tokens([s0] + (w + [c, d] + rest)) == [Trim(w)] + Tokens(rest)
  {
    TokensLeadingBlank(s0, w + [c, d] + rest);
    WordThenRun(w, c, d, rest);
  }

  /** Two words with a run of two separators between them: their two trims. */
  lemma WordRunPiece(w1: string, c: char, d: char, w2: string)
    requires NoneOf(w1, Blanks) && !AllSpace(w1) && NoneOf(w2, Blanks) && !AllSpace(w2)
    requires c in Blanks && d in Blanks
    ensures Tokens(w1 + [c, d] + w2) == [Trim(w1), Trim(w2)]
  {
    WordThenRun(w1, c, d, w2);
    TokensOfPiece(w2);
  }

  lemma Regroup(a: string, b: string, c: string, d: string, e: string, f: string)
    ensures a + b + c + d + e + f == a + (b + c + (d + e + f))
  {
  }

  /** A word followed by a run of two separators is one field, and the rest is tokenised on its own. */
  lemma WordThenRun(w: string, c: char, d: char, rest: string)
    requires NoneOf(w, Blanks) && !AllSpace(w) && c in Blanks && d in Blanks
    ensures Tokens(w + [c, d] + rest) == [Trim(w)] + Tokens(rest)
  {
    TokensRun(w, c, d, rest);
    TokensAt(w, c, rest);
    TokensOfPiece(w);
  }

  /**
   The text has no field exactly when it is all whitespace. This covers every
   `isspace` character, not only the three separators: `\r`, `\v` and `\f` are
   trimmed away from the pieces.
   */
  lemma {:induction false} TokensEmpty(text: string)
    ensures Tokens(text) == [] <==> AllSpace(text)
    decreases |text|
  {
    if NoneOf(text, Blanks) {
      TokensOfPiece(text);
    } else {
      var i :| 0 <= i < |text| && text[i] in Blanks;
      var a, b := text[..i], text[i + 1..];
      assert text == a + [text[i]] + b;
      TokensAt(a, text[i], b);
      TokensEmpty(a);
      TokensEmpty(b);
      SpaceAround(text, i);
    }
  }

  /** Text is all whitespace when the parts on either side of one whitespace character are. */
  lemma SpaceAround(text: string, i: nat)
    requires i < |text| && IsSpace(text[i])
    ensures AllSpace(text) <==> AllSpace(text[..i]) && AllSpace(text[i + 1..])
  {
    if AllSpace(text[..i]) && AllSpace(text[i + 1..]) {
      forall k | 0 <= k < |text| ensures IsSpace(text[k]) {
        if k < i {
          assert text[k] == text[..i][k];
        } else if k > i {
          assert text[k] == text[i + 1..][k - i - 1];
        }
      }
    }
  }

  function Cap(n: nat, strict: bool): int {
    if strict then n - 1 else n
  }

  /**
   `SchTime::parse`: reset the maps, take exactly three fields, parse second,
   minute and hour in that order, stop at the first field that does not succeed
   (keeping what the earlier fields set), and finally insist that no map is empty.
   A successful parse yields a valid schedule; fewer or more than three fields
   yield a failure with all maps cleared; the strict variant never lets
   `std::out_of_range` escape.
   */
  function ParseWith(text: string, strict: bool): (r: Parsed)
    ensures WellSized(r.sch)
    ensures r.status == Ok ==> Valid(r.sch)
    ensures r.status == OutOfRange ==> !strict
    ensures |Tokens(text)| != 3 ==> r == Parsed(Fail, Cleared())
    ensures |Tokens(text)| == 3 ==> FieldsOutcome(Tokens(text)[0], Tokens(text)[1], Tokens(text)[2], strict, r)
  {
    var toks := Tokens(text);
    if |toks| != 3 then Parsed(Fail, Cleared())
    else ParseFields(toks[0], toks[1], toks[2], strict)
  }

  /**
   How the outcome of `parse` relates to its three fields, each parsed on its own
   into a cleared map: a field's map holds what that field set when every earlier
   field succeeded and stays cleared otherwise; the first field that does not
   succeed decides the status; and the parse succeeds exactly when all three
   fields succeed and none of their maps is empty.
   */
  predicate FieldsOutcome(sec: string, min: string, hour: string, strict: bool, r: Parsed) {
    var s := ParseSubtime(sec, SecWidth, Cap(SecWidth, strict), Zeros(SecWidth));
    var m := ParseSubtime(min, MinWidth, Cap(MinWidth, strict), Zeros(MinWidth));
    var h := ParseSubtime(hour, HourWidth, Cap(HourWidth, strict), Zeros(HourWidth));
    && r.sch.sec == s.bits
    && r.sch.min == (if s.status == Ok then m.bits else Zeros(MinWidth))
    && r.sch.hour == (if s.status == Ok && m.status == Ok then h.bits else Zeros(HourWidth))
    && (s.status != Ok ==> r.status == s.status)
    && (s.status == Ok && m.status != Ok ==> r.status == m.status)
    && (s.status == Ok && m.status == Ok && h.status != Ok ==> r.status == h.status)
    && (s.status == Ok && m.status == Ok && h.status == Ok ==> r.status != OutOfRange)
    && (r.status == Ok <==>
          s.status == Ok && m.status == Ok && h.status == Ok
          && !NoneSet(s.bits) && !NoneSet(m.bits) && !NoneSet(h.bits))
  }

  /** The three fields, second, minute and hour, parsed in that order into cleared maps. */
  function ParseFields(sec: string, min: string, hour: string, strict: bool): (r: Parsed)
    ensures WellSized(r.sch)
    ensures r.status == Ok ==> Valid(r.sch)
    ensures r.status == OutOfRange ==> !strict
    ensures FieldsOutcome(sec, min, hour, strict, r)
  {
    Assemble(ParseSubtime(sec, SecWidth, Cap(SecWidth, strict), Zeros(SecWidth)),
             ParseSubtime(min, MinWidth, Cap(MinWidth, strict), Zeros(MinWidth)),
             ParseSubtime(hour, HourWidth, Cap(HourWidth, strict), Zeros(HourWidth)))
  }

  /**
   The field results put together: the minute result only counts once the second
   field succeeded, the hour result only once the minute field did too, and the
   integrity check runs last.
   */
  function Assemble(s: Field, m: Field, h: Field): Parsed {
    if s.status != Ok then Parsed(s.status, Schedule(s.bits, Zeros(MinWidth), Zeros(HourWidth)))
    else if m.status != Ok then Parsed(m.status, Schedule(s.bits, m.bits, Zeros(HourWidth)))
    else
      var sch := Schedule(s.bits, m.bits, h.bits);
      if h.status != Ok then Parsed(h.status, sch)
      else if NoneSet(s.bits) || NoneSet(m.bits) || NoneSet(h.bits) then Parsed(Fail, sch)
      else Parsed(Ok, sch)
  }

  /** The parser as the source has it. */
  function Parse(text: string): Parsed {
    ParseWith(text, false)
  }

  /** The parser with the bound checks tightened to `N - 1`. */
  function ParseStrict(text: string): Parsed {
    ParseWith(text, true)
  }

  // ---------------------------------------------------------------------------
  // What one term does to its field

  /** `*`, or a star term whose first `/` is its last character, turns every position on and ends the field at once. */
  lemma StarEndsField(term: string, rest: seq<string>, n: nat, cap: int, b: Bits)
    requires |b| == n && '*' in term
    requires |term| == 1 || ('/' in term && IndexOf(term, '/') == |term| - 1)
    ensures ParseTerms([term] + rest, n, cap, b) == Field(Ok, Ones(n))
  {
    assert ([term] + rest)[0] == term;
    if |term| != 1 {
      assert term[IndexOf(term, '/') + 1..] == "";
    }
  }

  /** A star term longer than `*` with no `/` fails the whole field and adds nothing. */
  lemma StarWithoutSlashFails(term: string, rest: seq<string>, n: nat, cap: int, b: Bits)
    requires |b| == n && '*' in term && |term| > 1 && '/' !in term
    ensures ParseTerms([term] + rest, n, cap, b) == Field(Fail, b)
  {
    assert ([term] + rest)[0] == term;
  }

  /**
   A star term with a step text after its first `/`: with K = atoi(step) and
   0 < K < N it turns on exactly the multiples of K and the field goes on;
   any other K fails the field with nothing added.
   */
  lemma StepTerm(term: string, n: nat, cap: int, b: Bits)
    requires |b| == n && '*' in term && |term| > 1 && '/' in term
    requires IndexOf(term, '/') + 1 < |term|
    ensures var k := Atoi(term[IndexOf(term, '/') + 1..]);
            if 0 < k < n then
              var r := ApplyTerm(term, n, cap, b);
              r.Next? && forall i | 0 <= i < n :: r.bits[i] == (b[i] || i % k == 0)
            else ApplyTerm(term, n, cap, b) == Stop(Fail, b)
  {
  }

  /** A `-` term that does not split into two non-empty sides with `0 <= A < B <= cap` fails the whole field. */
  lemma BadRangeFails(term: string, rest: seq<string>, n: nat, cap: int, b: Bits)
    requires |b| == n && '*' !in term && '-' in term
    requires var parts := SplitAny(term, {'-'});
             |parts| != 2 || |parts[0]| == 0 || |parts[1]| == 0
             || var from, to := Atoi(parts[0]), Atoi(parts[1]);
                from < 0 || to < 0 || from > cap || to > cap || from >= to
    ensures ParseTerms([term] + rest, n, cap, b) == Field(Fail, b)
  {
    assert ([term] + rest)[0] == term;
  }

  /** A plain term whose value lies outside `0..cap` fails the whole field. */
  lemma BadValueFails(term: string, rest: seq<string>, n: nat, cap: int, b: Bits)
    requires |b| == n && '*' !in term && '-' !in term && term != ""
    requires Atoi(term) < 0 || Atoi(term) > cap
    ensures ParseTerms([term] + rest, n, cap, b) == Field(Fail, b)
  {
    assert ([term] + rest)[0] == term;
  }

  /** A plain term whose value is the width passes a check that admits it, and `bitset::set` then throws. */
  lemma WidthValueThrows(term: string, rest: seq<string>, n: nat, cap: int, b: Bits)
    requires |b| == n && '*' !in term && '-' !in term && term != ""
    requires Atoi(term) == n <= cap
    ensures ParseTerms([term] + rest, n, cap, b) == Field(OutOfRange, b)
  {
    assert ([term] + rest)[0] == term;
  }

  /**
   Any plain term (no star, no dash) whose `atoi` value is a position the bound
   admits turns on that position and lets the field go on, whatever else the text
   holds: leading zeros, a sign, leading blanks or trailing non-digits.
   */
  lemma PlainTermApplies(term: string, n: nat, cap: int, b: Bits)
    requires |b| == n && term != "" && '*' !in term && '-' !in term
    requires 0 <= Atoi(term) < n && Atoi(term) <= cap
    ensures ApplyTerm(term, n, cap, b) == Next(b[Atoi(term) := true])
  {
  }

  /** A plain term with no digits reads as 0 through `atoi`, so it turns on position 0. */
  lemma NoDigitsMeansZero(term: string, n: nat, cap: int, b: Bits)
    requires |b| == n && n > 0 && cap >= 0
    requires '*' !in term && '-' !in term && term != ""
    requires forall k | 0 <= k < |term| :: !IsDigit(term[k])
    ensures ApplyTerm(term, n, cap, b) == Next(b[0 := true])
  {
    var t := term[LeadingSpaces(term)..];
    assert |t| > 1 ==> !IsDigit(t[1]) by {
      if |t| > 1 { assert t[1] == term[LeadingSpaces(term) + 1]; }
    }
    assert |t| > 0 ==> !IsDigit(t[0]) by {
      if |t| > 0 { assert t[0] == term[LeadingSpaces(term)]; }
    }
    AtoiWithoutDigits(term);
  }

  /**
   Whether a term stops its field, and with which status, depends only on the
   term, the width and the bound, never on the positions already on.
   */
  lemma StopIgnoresBits(term: string, n: nat, cap: int, b: Bits, c: Bits)
    requires |b| == n && |c| == n
    ensures ApplyTerm(term, n, cap, b).Stop? == ApplyTerm(term, n, cap, c).Stop?
    ensures ApplyTerm(term, n, cap, b).Stop? ==> ApplyTerm(term, n, cap, b).status == ApplyTerm(term, n, cap, c).status
  {
    if '*' !in term && '-' in term {
      var parts := SplitAny(term, {'-'});
      if |parts| == 2 && |parts[0]| > 0 && |parts[1]| > 0 {
        var from, to := Atoi(parts[0]), Atoi(parts[1]);
        if 0 <= from <= cap && 0 <= to <= cap && from < to {
          assert SetRange(b, from, to).Stop? == SetRange(c, from, to).Stop?;
        }
      }
    }
  }

  /**
   A term that stops the field (fails, throws, or ends it early with every
   position on) does so wherever it stands, provided no earlier term stopped the
   field first: a bad term anywhere in the list, not only at its head, makes the
   field fail.
   */
  lemma {:induction false} StopTermEndsField(pre: seq<string>, bad: string, post: seq<string>, n: nat, cap: int, b: Bits)
    requires |b| == n
    requires forall i | 0 <= i < |pre| :: ApplyTerm(pre[i], n, cap, Zeros(n)).Next?
    requires ApplyTerm(bad, n, cap, Zeros(n)).Stop?
    ensures ParseTerms(pre + [bad] + post, n, cap, b).status == ApplyTerm(bad, n, cap, Zeros(n)).status
    decreases |pre|
  {
    var terms := pre + [bad] + post;
    if |pre| == 0 {
      assert terms[0] == bad;
      FailingHead(terms, n, cap, b);
    } else {
      ConcatTail(pre, bad, post);
      var next := PassingHead(terms, n, cap, b);
      StopTermEndsField(pre[1..], bad, post, n, cap, next);
    }
  }

  lemma ConcatTail(pre: seq<string>, bad: string, post: seq<string>)
    requires |pre| > 0
    ensures (pre + [bad] + post)[0] == pre[0]
    ensures (pre + [bad] + post)[1..] == pre[1..] + [bad] + post
    ensures forall i | 0 <= i < |pre| - 1 :: pre[1..][i] == pre[i + 1]
  {
  }

  /** A first term that stops the field on cleared bits stops it, with the same status, on any bits. */
  lemma FailingHead(terms: seq<string>, n: nat, cap: int, b: Bits)
    requires |b| == n && |terms| > 0
    requires ApplyTerm(terms[0], n, cap, Zeros(n)).Stop?
    ensures ParseTerms(terms, n, cap, b).status == ApplyTerm(terms[0], n, cap, Zeros(n)).status
  {
    StopIgnoresBits(terms[0], n, cap, b, Zeros(n));
  }

  /** A first term that lets the field go on over cleared bits lets it go on over any bits. */
  lemma PassingHead(terms: seq<string>, n: nat, cap: int, b: Bits) returns (next: Bits)
    requires |b| == n && |terms| > 0
    requires ApplyTerm(terms[0], n, cap, Zeros(n)).Next?
    ensures |next| == n
    ensures ParseTerms(terms, n, cap, b) == ParseTerms(terms[1..], n, cap, next)
  {
    StopIgnoresBits(terms[0], n, cap, b, Zeros(n));
    next := ApplyTerm(terms[0], n, cap, b).bits;
  }

  // ---------------------------------------------------------------------------
  // The source's bound checks against the strict ones

  /**
   For one term, the checks that admit N and the checks that stop at N - 1 agree
   except where the former let N through to `bitset::set`; there the latter fail.
   */
  lemma TermStrictAgrees(term: string, n: nat, b: Bits)
    requires |b| == n && n > 0
    ensures var w := ApplyTerm(term, n, n, b);
            var s := ApplyTerm(term, n, n - 1, b);
            if w.Stop? && w.status == OutOfRange then s.Stop? && s.status == Fail else s == w
  {
  }

  lemma {:induction false} TermsStrictAgree(terms: seq<string>, n: nat, b: Bits)
    requires |b| == n && n > 0
    ensures var w := ParseTerms(terms, n, n, b);
            var s := ParseTerms(terms, n, n - 1, b);
            if w.status == OutOfRange then s.status == Fail else s == w
  {
    if |terms| > 0 {
      TermStrictAgrees(terms[0], n, b);
      match ApplyTerm(terms[0], n, n, b)
      case Stop(_, _) =>
      case Next(bits) => TermsStrictAgree(terms[1..], n, bits);
    }
  }

  lemma SubtimeStrictAgrees(text: string, n: nat)
    requires n > 0
    ensures var w := ParseSubtime(text, n, n, Zeros(n));
            var s := ParseSubtime(text, n, n - 1, Zeros(n));
            if w.status == OutOfRange then s.status == Fail else s == w
  {
    TermsStrictAgree(SplitAny(text, {','}), n, Zeros(n));
  }

  /**
   The strict parser returns exactly what the source's parser returns whenever
   the latter does not throw, and a plain failure where it does.
   */
  lemma ParseStrictAgrees(text: string)
    ensures Parse(text).status != OutOfRange ==> ParseStrict(text) == Parse(text)
    ensures Parse(text).status == OutOfRange ==> ParseStrict(text).status == Fail
  {
    var toks := Tokens(text);
    if |toks| == 3 {
      FieldsStrictAgree(toks[0], toks[1], toks[2]);
    }
  }

  lemma FieldsStrictAgree(sec: string, min: string, hour: string)
    ensures var w := ParseFields(sec, min, hour, false);
            var s := ParseFields(sec, min, hour, true);
            if w.status == OutOfRange then s.status == Fail else s == w
  {
    var ws := ParseSubtime(sec, SecWidth, SecWidth, Zeros(SecWidth));
    var wm := ParseSubtime(min, MinWidth, MinWidth, Zeros(MinWidth));
    var wh := ParseSubtime(hour, HourWidth, HourWidth, Zeros(HourWidth));
    var ss := ParseSubtime(sec, SecWidth, SecWidth - 1, Zeros(SecWidth));
    var sm := ParseSubtime(min, MinWidth, MinWidth - 1, Zeros(MinWidth));
    var sh := ParseSubtime(hour, HourWidth, HourWidth - 1, Zeros(HourWidth));
    SubtimeStrictAgrees(sec, SecWidth);
    SubtimeStrictAgrees(min, MinWidth);
    SubtimeStrictAgrees(hour, HourWidth);
    assert ParseFields(sec, min, hour, false) == Assemble(ws, wm, wh);
    assert ParseFields(sec, min, hour, true) == Assemble(ss, sm, sh);
    AssembleAgrees(ws, wm, wh, ss, sm, sh);
  }

  /** Field results that agree pairwise, up to a throw turned into a failure, assemble to parses that agree the same way. */
  lemma AssembleAgrees(ws: Field, wm: Field, wh: Field, ss: Field, sm: Field, sh: Field)
    requires if ws.status == OutOfRange then ss.status == Fail else ss == ws
    requires if wm.status == OutOfRange then sm.status == Fail else sm == wm
    requires if wh.status == OutOfRange then sh.status == Fail else sh == wh
    ensures var w := Assemble(ws, wm, wh);
            var s := Assemble(ss, sm, sh);
            if w.status == OutOfRange then s.status == Fail else s == w
  {
  }

}

=== FILE: schsyntax.dfy ===
/**
 The well-formed schedule language as data: a term is `*`, a step K (a star, a
 slash and K), a range `A-B` or a single value; a field is a non-empty list of
 terms joined by commas; an expression is three fields joined by spaces.
 Rendering a valid expression and parsing it back gives exactly the positions
 its terms denote.
 */
module SchSyntax {
  import opened CLib
  import opened Split
  import opened StrUtil
  import opened Bitmap
  import opened SchParse

  datatype Term = Every | EveryK(k: nat) | Span(lo: nat, hi: nat) | At(v: nat)

  /** The terms a field of width `n` accepts without failing or throwing. */
  predicate ValidTerm(t: Term, n: nat) {
    match t
    case Every => true
    case EveryK(k) => 0 < k < n
    case Span(lo, hi) => lo < hi < n
    case At(v) => v < n
  }

  /** The positions a term stands for. */
  predicate Hits(t: Term, i: int) {
    match t
    case Every => true
    case EveryK(k) => k > 0 && i % k == 0
    case Span(lo, hi) => lo <= i <= hi
    case At(v) => i == v
  }

  function Render(t: Term): string {
    match t
    case Every => "*"
    case EveryK(k) => "*/" + Decimal(k)
    case Span(lo, hi) => Decimal(lo) + "-" + Decimal(hi)
    case At(v) => Decimal(v)
  }

  predicate ValidField(ts: seq<Term>, n: nat) {
    |ts| > 0 && forall j | 0 <= j < |ts| :: ValidTerm(ts[j], n)
  }

  predicate Covered(ts: seq<Term>, i: int) {
    exists j | 0 <= j < |ts| :: Hits(ts[j], i)
  }

  function Renders(ts: seq<Term>): (r: seq<string>)
    ensures |r| == |ts|
  {
    seq(|ts|, j requires 0 <= j < |ts| => Render(ts[j]))
  }

  function RenderField(ts: seq<Term>): string
    requires |ts| > 0
  {
    Join(Renders(ts), ',')
  }

  /** `b` with the positions of `ts` added. */
  function Union(b: Bits, ts: seq<Term>): (r: Bits)
    ensures |r| == |b|
  {
    seq(|b|, i requires 0 <= i < |b| => b[i] || Covered(ts, i))
  }

  function Denote(ts: seq<Term>, n: nat): Bits {
    Union(Zeros(n), ts)
  }

  datatype CronSpec = CronSpec(sec: seq<Term>, min: seq<Term>, hour: seq<Term>)

  predicate ValidSpec(c: CronSpec) {
    ValidField(c.sec, SecWidth) && ValidField(c.min, MinWidth) && ValidField(c.hour, HourWidth)
  }

  function RenderSpec(c: CronSpec): string
    requires |c.sec| > 0 && |c.min| > 0 && |c.hour| > 0
  {
    Join([RenderField(c.sec), RenderField(c.min), RenderField(c.hour)], ' ')
  }

  function DenoteSpec(c: CronSpec): Schedule {
    Schedule(Denote(c.sec, SecWidth), Denote(c.min, MinWidth), Denote(c.hour, HourWidth))
  }

  // ---------------------------------------------------------------------------
  // Characters of rendered text

  predicate TermChar(c: char) {
    IsDigit(c) || c == '*' || c == '/' || c == '-'
  }

  /** Text made of term characters and commas only: no blank, no `isspace`. */
  predicate FieldText(s: string) {
    forall k | 0 <= k < |s| :: TermChar(s[k]) || s[k] == ','
  }

  lemma RenderChars(t: Term)
    ensures forall k | 0 <= k < |Render(t)| :: TermChar(Render(t)[k])
  {
  }

  lemma {:induction false} JoinFieldText(ps: seq<string>)
    requires |ps| > 0 && forall j | 0 <= j < |ps| :: FieldText(ps[j])
    ensures FieldText(Join(ps, ','))
  {
    if |ps| > 1 {
      JoinFieldText(ps[1..]);
      var s := Join(ps, ',');
      assert s == ps[0] + [','] + Join(ps[1..], ',');
      assert forall k | |ps[0]| + 1 <= k < |s| :: s[k] == Join(ps[1..], ',')[k - |ps[0]| - 1];
    }
  }

  lemma RenderFieldText(ts: seq<Term>)
    requires |ts| > 0
    ensures FieldText(RenderField(ts))
    ensures |RenderField(ts)| > 0
  {
    forall j | 0 <= j < |ts| ensures FieldText(Renders(ts)[j]) {
      RenderChars(ts[j]);
    }
    JoinFieldText(Renders(ts));
    RenderChars(ts[0]);
    assert |Render(ts[0])| > 0;
    assert |Join(Renders(ts), ',')| >= |Renders(ts)[0]|;
  }

  // ---------------------------------------------------------------------------
  // Round trips

  /** Every rendered term other than `*` parses to its positions and lets the field go on. */
  lemma RenderedTermApplies(t: Term, n: nat, cap: int, b: Bits)
    requires |b| == n && n <= Int32Max && n - 1 <= cap
    requires ValidTerm(t, n) && t != Every
    ensures ApplyTerm(Render(t), n, cap, b) == Next(Union(b, [t]))
  {
    match t
    case EveryK(k) => StepTermApplies(k, n, cap, b);
    case Span(lo, hi) => SpanTermApplies(lo, hi, n, cap, b);
    case At(v) => AtTermApplies(v, n, cap, b);
  }

  lemma StepTermApplies(k: nat, n: nat, cap: int, b: Bits)
    requires |b| == n && n <= Int32Max && 0 < k < n
    ensures ApplyTerm(Render(EveryK(k)), n, cap, b) == Next(Union(b, [EveryK(k)]))
  {
    var t := EveryK(k);
    var term := Render(t);
    assert term[0] == '*' && term[1] == '/';
    assert IndexOf(term, '/') == 1;
    assert term[2..] == Decimal(k) + "";
    AtoiDecimal(k, "");
    var r := SetEvery(b, k, 0);
    assert ApplyTerm(term, n, cap, b) == Next(r);
    assert r == Union(b, [t]) by {
      forall i | 0 <= i < n ensures r[i] == Union(b, [t])[i] {
        CoveredSingle(t, i);
      }
    }
  }

  lemma SpanText(lo: nat, hi: nat)
    requires lo < hi <= Int32Max
    ensures '*' !in Render(Span(lo, hi)) && '-' in Render(Span(lo, hi))
    ensures SplitAny(Render(Span(lo, hi)), {'-'}) == [Decimal(lo), Decimal(hi)]
    ensures Atoi(Decimal(lo)) == lo && Atoi(Decimal(hi)) == hi
    ensures Atoi(Render(Span(lo, hi))) == lo
  {
    var d, e := Decimal(lo), Decimal(hi);
    SpanChars(d, e);
    SpanSplit(d, e);
    DecimalAlone(lo);
    DecimalAlone(hi);
    DecimalThenDash(lo, e);
  }

  lemma DecimalAlone(n: nat)
    requires n <= Int32Max
    ensures Atoi(Decimal(n)) == n
  {
    AtoiDecimal(n, "");
    assert Decimal(n) + "" == Decimal(n);
  }

  lemma DecimalThenDash(n: nat, e: string)
    requires n <= Int32Max
    ensures Atoi(Decimal(n) + "-" + e) == n
  {
    ConcatAssoc(Decimal(n), "-", e);
    assert ("-" + e)[0] == '-';
    AtoiDecimal(n, "-" + e);
  }

  lemma ConcatAssoc(a: string, b: string, c: string)
    ensures a + b + c == a + (b + c)
  {
  }

  lemma SpanChars(d: string, e: string)
    requires AllDigits(d) && AllDigits(e)
    ensures '*' !in d + "-" + e && '-' in d + "-" + e
  {
    var term := d + "-" + e;
    assert term[|d|] == '-';
    forall k | 0 <= k < |term| ensures term[k] != '*' {
      if k < |d| { assert term[k] == d[k]; }
      else if k > |d| { assert term[k] == e[k - |d| - 1]; }
    }
  }

  lemma SpanSplit(d: string, e: string)
    requires AllDigits(d) && AllDigits(e)
    ensures SplitAny(d + "-" + e, {'-'}) == [d, e]
  {
    var parts := [d, e];
    assert parts[1..] == [e];
    assert Join(parts, '-') == d + "-" + e;
    SplitJoin(parts, '-', {'-'});
  }

  lemma SpanTermApplies(lo: nat, hi: nat, n: nat, cap: int, b: Bits)
    requires |b| == n && n <= Int32Max && n - 1 <= cap && lo < hi < n
    ensures ApplyTerm(Render(Span(lo, hi)), n, cap, b) == Next(Union(b, [Span(lo, hi)]))
  {
    var term := Render(Span(lo, hi));
    SpanText(lo, hi);
    var r := SetRange(b, lo, hi);
    assert RangeTerm(term, n, cap, b) == r;
    assert ValueTerm(term, n, cap, r.bits) == Next(r.bits) by {
      assert r.bits[lo := true] == r.bits;
    }
    SpanUnion(b, lo, hi);
  }

  lemma SpanUnion(b: Bits, lo: nat, hi: nat)
    requires lo < hi < |b|
    ensures SetRange(b, lo, hi) == Next(Union(b, [Span(lo, hi)]))
  {
    var r := SetRange(b, lo, hi);
    forall i | 0 <= i < |b| ensures r.bits[i] == Union(b, [Span(lo, hi)])[i] {
      CoveredSingle(Span(lo, hi), i);
    }
  }

  lemma AtTermApplies(v: nat, n: nat, cap: int, b: Bits)
    requires |b| == n && n <= Int32Max && n - 1 <= cap && v < n
    ensures ApplyTerm(Render(At(v)), n, cap, b) == Next(Union(b, [At(v)]))
  {
    var t := At(v);
    var term := Render(t);
    RenderChars(t);
    assert '*' !in term && '-' !in term;
    assert term == Decimal(v) + "";
    AtoiDecimal(v, "");
    assert b[v := true] == Union(b, [t]) by {
      forall i | 0 <= i < n ensures b[v := true][i] == Union(b, [t])[i] {
        CoveredSingle(t, i);
      }
    }
  }

  lemma CoveredSingle(t: Term, i: int)
    ensures Covered([t], i) <==> Hits(t, i)
  {
    assert [t][0] == t;
  }

  lemma {:induction false} TermsRoundTrip(ts: seq<Term>, n: nat, cap: int, b: Bits)
    requires |b| == n && n <= Int32Max && n - 1 <= cap
    requires forall j | 0 <= j < |ts| :: ValidTerm(ts[j], n)
    ensures ParseTerms(Renders(ts), n, cap, b) == Field(Ok, Union(b, ts))
  {
    if |ts| == 0 {
      assert Union(b, ts) == b;
    } else if ts[0] == Every {
      assert Renders(ts)[0] == "*";
      assert Union(b, ts) == Ones(n) by {
        forall i | 0 <= i < n ensures Union(b, ts)[i] {
          assert Hits(ts[0], i);
        }
      }
      assert ApplyTerm("*", n, cap, b) == Stop(Ok, Ones(n));
    } else {
      var b' := Union(b, [ts[0]]);
      RenderedTermApplies(ts[0], n, cap, b);
      assert Renders(ts)[1..] == Renders(ts[1..]);
      TermsRoundTrip(ts[1..], n, cap, b');
      UnionCons(b, ts);
    }
  }

  lemma UnionCons(b: Bits, ts: seq<Term>)
    requires |ts| > 0
    ensures Union(Union(b, [ts[0]]), ts[1..]) == Union(b, ts)
  {
    var b' := Union(b, [ts[0]]);
    forall i | 0 <= i < |b| ensures Union(b', ts[1..])[i] == Union(b, ts)[i] {
      if Covered(ts, i) {
        var j :| 0 <= j < |ts| && Hits(ts[j], i);
        if j > 0 { assert Hits(ts[1..][j - 1], i); }
      }
      if Covered(ts[1..], i) {
        var j :| 0 <= j < |ts| - 1 && Hits(ts[1..][j], i);
        assert Hits(ts[j + 1], i);
      }
      CoveredSingle(ts[0], i);
    }
  }

  /**
   A rendered field of valid terms parses without error and adds exactly the
   positions its terms denote, whatever the bound checks admit beyond N - 1.
   */
  lemma FieldRoundTrip(ts: seq<Term>, n: nat, cap: int, b: Bits)
    requires |b| == n && n <= Int32Max && n - 1 <= cap
    requires ValidField(ts, n)
    ensures ParseSubtime(RenderField(ts), n, cap, b) == Field(Ok, Union(b, ts))
  {
    forall j | 0 <= j < |ts| ensures NoneOf(Renders(ts)[j], {','}) {
      RenderChars(ts[j]);
    }
    SplitJoin(Renders(ts), ',', {','});
    TermsRoundTrip(ts, n, cap, b);
  }

  /**
   Non-empty words without `isspace` characters, joined by any one of the
   separators, come back as the fields.
   */
  lemma TokensOfWords(ws: seq<string>, sep: char)
    requires |ws| > 0 && sep in Blanks
    requires forall j | 0 <= j < |ws| :: |ws[j]| > 0 && forall k | 0 <= k < |ws[j]| :: !IsSpace(ws[j][k])
    ensures Tokens(Join(ws, sep)) == ws
  {
    KeepTrimmedClean(ws);
    SplitJoin(ws, sep, Blanks);
  }

  lemma {:induction false} KeepTrimmedClean(ws: seq<string>)
    requires forall j | 0 <= j < |ws| :: |ws[j]| > 0 && forall k | 0 <= k < |ws[j]| :: !IsSpace(ws[j][k])
    ensures forall j | 0 <= j < |ws| :: NoneOf(ws[j], Blanks)
    ensures KeepTrimmed(ws) == ws
  {
    if |ws| > 0 {
      TrimKeepsClean(ws[0]);
      KeepTrimmedClean(ws[1..]);
      assert [ws[0]] + ws[1..] == ws;
    }
  }

  lemma FieldTextWord(s: string)
    requires FieldText(s) && |s| > 0
    ensures |s| > 0 && forall k | 0 <= k < |s| :: !IsSpace(s[k])
  {
  }

  lemma DenoteNotEmpty(ts: seq<Term>, n: nat)
    requires ValidField(ts, n) && n > 0
    ensures !NoneSet(Denote(ts, n))
  {
    var w := match ts[0]
      case Every => 0
      case EveryK(_) => 0
      case Span(lo, _) => lo
      case At(v) => v;
    assert ValidTerm(ts[0], n) && Hits(ts[0], w) && w < n;
    assert Covered(ts, w);
    assert Denote(ts, n)[w];
  }

  /**
   Parsing a rendered valid expression succeeds and yields exactly the positions
   its three fields denote, with the source's bound checks and the strict ones alike.
   */
  lemma ParseRoundTrip(c: CronSpec, strict: bool)
    requires ValidSpec(c)
    ensures ParseWith(RenderSpec(c), strict) == Parsed(Ok, DenoteSpec(c))
  {
    RenderFieldText(c.sec);
    RenderFieldText(c.min);
    RenderFieldText(c.hour);
    var ws := [RenderField(c.sec), RenderField(c.min), RenderField(c.hour)];
    forall j | 0 <= j < 3 ensures |ws[j]| > 0 && forall k | 0 <= k < |ws[j]| :: !IsSpace(ws[j][k]) {
      FieldTextWord(ws[j]);
    }
    TokensOfWords(ws, ' ');
    FieldRoundTrip(c.sec, SecWidth, Cap(SecWidth, strict), Zeros(SecWidth));
    FieldRoundTrip(c.min, MinWidth, Cap(MinWidth, strict), Zeros(MinWidth));
    FieldRoundTrip(c.hour, HourWidth, Cap(HourWidth, strict), Zeros(HourWidth));
    DenoteNotEmpty(c.sec, SecWidth);
    DenoteNotEmpty(c.min, MinWidth);
    DenoteNotEmpty(c.hour, HourWidth);
  }

  /**
   No rollback: once the second field has parsed, its positions stay in the
   result whatever the minute and hour fields do, failure and exception included.
   */
  lemma SecondFieldKept(ts: seq<Term>, min: string, hour: string, strict: bool)
    requires ValidField(ts, SecWidth)
    requires |min| > 0 && forall k | 0 <= k < |min| :: !IsSpace(min[k])
    requires |hour| > 0 && forall k | 0 <= k < |hour| :: !IsSpace(hour[k])
    ensures ParseWith(Join([RenderField(ts), min, hour], ' '), strict).sch.sec == Denote(ts, SecWidth)
  {
    RenderFieldText(ts);
    FieldTextWord(RenderField(ts));
    var ws := [RenderField(ts), min, hour];
    assert forall j | 0 <= j < 3 :: |ws[j]| > 0 && forall k | 0 <= k < |ws[j]| :: !IsSpace(ws[j][k]);
    TokensOfWords(ws, ' ');
    FieldRoundTrip(ts, SecWidth, Cap(SecWidth, strict), Zeros(SecWidth));
  }
}

=== FILE: schvectors.dfy ===
/**
 Concrete schedules: the expressions the repository's tests parse, what the
 source's `next_interval` answers for them from a given time of day, and the
 inputs on which the source's answer differs from the earliest firing time.
 */
module SchVectors {
  import opened CLib
  import opened Split
  import opened StrUtil
  import opened Bitmap
  import opened SchParse
  import opened SchSyntax
  import opened SchNext

  // ---------------------------------------------------------------------------
  // The positions of the single-term fields used below

  lemma EveryDenotes(n: nat)
    ensures forall i | 0 <= i < n :: Denote([Every], n)[i]
  {
    forall i | 0 <= i < n ensures Denote([Every], n)[i] {
      CoveredSingle(Every, i);
    }
  }

  lemma AtDenotes(v: nat, n: nat)
    ensures forall i | 0 <= i < n :: Denote([At(v)], n)[i] == (i == v)
  {
    forall i | 0 <= i < n ensures Denote([At(v)], n)[i] == (i == v) {
      CoveredSingle(At(v), i);
    }
  }

  lemma StepDenotes(k: nat, n: nat)
    requires k > 0
    ensures forall i | 0 <= i < n :: Denote([EveryK(k)], n)[i] == (i % k == 0)
  {
    forall i | 0 <= i < n ensures Denote([EveryK(k)], n)[i] == (i % k == 0) {
      CoveredSingle(EveryK(k), i);
    }
  }

  lemma PairDenotes(a: nat, b: nat, n: nat)
    ensures forall i | 0 <= i < n :: Denote([At(a), At(b)], n)[i] == (i == a || i == b)
  {
    var ts := [At(a), At(b)];
    forall i | 0 <= i < n ensures Denote(ts, n)[i] == (i == a || i == b) {
      if i == a {
        assert Hits(ts[0], i);
      } else if i == b {
        assert Hits(ts[1], i);
      } else {
        assert !Hits(ts[0], i) && !Hits(ts[1], i);
      }
    }
  }

  /** The search from `from` stops at `r` when `r` is the first position on. */
  lemma FoundAt(bits: Bits, from: nat, r: nat)
    requires |bits| < 255 && from <= r < |bits| && bits[r]
    requires forall i | from <= i < r :: !bits[i]
    ensures FindGe(bits, from) == r
  {
  }

  lemma NoneFrom(bits: Bits, from: nat)
    requires |bits| < 255
    requires forall i | from <= i < |bits| :: !bits[i]
    ensures FindGe(bits, from) == NotFound
  {
  }

  // ---------------------------------------------------------------------------
  // Field splitting

  /**
   A tab in front, two spaces and two newlines between fields, and a carriage
   return and a vertical tab at the ends of fields: the fields are still `0`,
   `3` and `4`.
   */
  lemma TokensMixedBlanks()
    ensures Tokens("\t0\r  3\n\n4\U{B}") == ["0", "3", "4"]
  {
    var w0, w1, w2 := "0\r", "3", "4\U{B}";
    assert "\t0\r  3\n\n4\U{B}" == ['\t'] + w0 + [' ', ' '] + w1 + ['\n', '\n'] + w2;
    assert !IsSpace(w0[0]) && !IsSpace(w1[0]) && !IsSpace(w2[0]);
    FieldsAmongRuns(w0, w1, w2, '\t', ' ', ' ', '\n', '\n');
    DigitThenSpace('0', '\r');
    DigitThenSpace('4', '\U{B}');
    TrimKeepsClean(w1);
  }

  /** A digit followed by an `isspace` character that is not a separator trims to the digit. */
  lemma DigitThenSpace(d: char, e: char)
    requires IsDigit(d) && IsSpace(e)
    ensures Trim([d, e]) == [d]
  {
    var p := [d, e];
    var t := Trim(p);
    assert LeadingSpaces(p) == 0;
    assert |t| > 0 by { assert !IsSpace(p[0]); }
    assert t == p[..|t|];
    assert !IsSpace(t[|t| - 1]);
  }

  // ---------------------------------------------------------------------------
  // The expressions the repository's tests parse

  const AllStars: CronSpec := CronSpec([Every], [Every], [Every])
  const ZeroThreeFour: CronSpec := CronSpec([At(0)], [At(3)], [At(4)])
  const AllZero: CronSpec := CronSpec([At(0)], [At(0)], [At(0)])
  const TwelveTwentyFour: CronSpec := CronSpec([At(12), At(24)], [Every], [Every])
  const EvenMinutes: CronSpec := CronSpec([Every], [EveryK(2)], [Every])
  const MinuteTwo: CronSpec := CronSpec([Every], [At(2)], [Every])
  const ThirdSeconds: CronSpec := CronSpec([EveryK(3)], [Every], [Every])

  /** `* * *` parses to every position of every field. */
  lemma ParseAllStars()
    ensures Parse("* * *") == Parsed(Ok, Schedule(Ones(SecWidth), Ones(MinWidth), Ones(HourWidth)))
  {
    assert RenderSpec(AllStars) == "* * *";
    ParseRoundTrip(AllStars, false);
    EveryField(SecWidth);
    EveryField(HourWidth);
  }

  lemma EveryField(n: nat)
    ensures Denote([Every], n) == Ones(n)
  {
    EveryDenotes(n);
  }

  /** `0 3 4` parses to second 0, minute 3 and hour 4 alone. */
  lemma ParseZeroThreeFour()
    ensures Parse("0 3 4") == Parsed(Ok, Schedule(Zeros(SecWidth)[0 := true], Zeros(MinWidth)[3 := true], Zeros(HourWidth)[4 := true]))
  {
    assert RenderSpec(ZeroThreeFour) == "0 3 4";
    ParseRoundTrip(ZeroThreeFour, false);
    SingleField(0, SecWidth);
    SingleField(3, MinWidth);
    SingleField(4, HourWidth);
  }

  lemma SingleField(v: nat, n: nat)
    requires v < n
    ensures Denote([At(v)], n) == Zeros(n)[v := true]
  {
    AtDenotes(v, n);
  }

  lemma ParseAllZero()
    ensures Parse("0 0 0") == Parsed(Ok, DenoteSpec(AllZero))
  {
    assert RenderSpec(AllZero) == "0 0 0";
    ParseRoundTrip(AllZero, false);
  }

  lemma ParseTwelveTwentyFour()
    ensures Parse("12,24 * *") == Parsed(Ok, DenoteSpec(TwelveTwentyFour))
  {
    assert RenderSpec(TwelveTwentyFour) == "12,24 * *";
    ParseRoundTrip(TwelveTwentyFour, false);
  }

  lemma ParseEvenMinutes()
    ensures Parse("* */2 *") == Parsed(Ok, DenoteSpec(EvenMinutes))
  {
    assert RenderSpec(EvenMinutes) == "* */2 *";
    ParseRoundTrip(EvenMinutes, false);
  }

  lemma ParseMinuteTwo()
    ensures Parse("* 2 *") == Parsed(Ok, DenoteSpec(MinuteTwo))
  {
    assert RenderSpec(MinuteTwo) == "* 2 *";
    ParseRoundTrip(MinuteTwo, false);
  }

  lemma ParseThirdSeconds()
    ensures Parse("*/3 * *") == Parsed(Ok, DenoteSpec(ThirdSeconds))
  {
    assert RenderSpec(ThirdSeconds) == "*/3 * *";
    ParseRoundTrip(ThirdSeconds, false);
  }

  // ---------------------------------------------------------------------------
  // The positions of the parsed schedules

  lemma TwelveTwentyFourBits(sch: Schedule)
    requires sch == DenoteSpec(TwelveTwentyFour)
    ensures WellSized(sch) && sch.sec[12] && sch.min[0] && sch.hour[0]
    ensures forall i | 0 < i < 12 :: !sch.sec[i]
  {
    PairDenotes(12, 24, SecWidth);
    EveryDenotes(MinWidth);
    EveryDenotes(HourWidth);
  }

  lemma EvenMinutesBits(sch: Schedule)
    requires sch == DenoteSpec(EvenMinutes)
    ensures WellSized(sch) && sch.sec[1] && sch.min[0] && sch.hour[0]
  {
    EveryDenotes(SecWidth);
    StepDenotes(2, MinWidth);
    EveryDenotes(HourWidth);
  }

  lemma ThirdSecondsBits(sch: Schedule)
    requires sch == DenoteSpec(ThirdSeconds)
    ensures WellSized(sch) && sch.sec[0] && sch.sec[3] && !sch.sec[59]
    ensures forall i | 0 < i < 3 :: !sch.sec[i]
    ensures sch.min[0] && sch.min[1] && sch.hour[0]
  {
    StepDenotes(3, SecWidth);
    EveryDenotes(MinWidth);
    EveryDenotes(HourWidth);
    assert 59 % 3 == 2 && 3 % 3 == 0;
  }

  lemma MinuteTwoBits(sch: Schedule)
    requires sch == DenoteSpec(MinuteTwo)
    ensures WellSized(sch) && sch.sec[0] && sch.sec[1] && sch.hour[0]
    ensures sch.min[2] && !sch.min[0] && !sch.min[1]
  {
    EveryDenotes(SecWidth);
    AtDenotes(2, MinWidth);
    EveryDenotes(HourWidth);
  }

  lemma AllZeroBits(sch: Schedule)
    requires sch == DenoteSpec(AllZero)
    ensures WellSized(sch) && sch.sec[0] && sch.min[0] && sch.hour[0]
    ensures forall i | 0 < i < SecWidth :: !sch.sec[i]
    ensures forall i | 0 < i < MinWidth :: !sch.min[i]
    ensures forall i | 0 < i < HourWidth :: !sch.hour[i]
  {
    AtDenotes(0, SecWidth);
    AtDenotes(0, MinWidth);
    AtDenotes(0, HourWidth);
  }

  // ---------------------------------------------------------------------------
  // Intervals from a given time of day

  /** From midnight, `12,24 * *` next fires after 12 seconds, by either computation. */
  lemma ListFromMidnight()
    ensures Parse("12,24 * *").status == Ok
    ensures NextInterval(Parse("12,24 * *").sch, Clock(0, 0, 0)) == 12
    ensures NextIntervalFixed(Parse("12,24 * *").sch, Clock(0, 0, 0)) == 12
  {
    ParseTwelveTwentyFour();
    var sch := DenoteSpec(TwelveTwentyFour);
    TwelveTwentyFourBits(sch);
    AsWrittenAgrees(sch, Clock(0, 0, 0), 12);
  }

  /** From midnight, `EvenMinutes` (every second, even minutes, every hour) next fires after one second, by either computation. */
  lemma StepMinuteFromMidnight()
    ensures Parse("* */2 *").status == Ok
    ensures NextInterval(Parse("* */2 *").sch, Clock(0, 0, 0)) == 1
    ensures NextIntervalFixed(Parse("* */2 *").sch, Clock(0, 0, 0)) == 1
  {
    ParseEvenMinutes();
    var sch := DenoteSpec(EvenMinutes);
    EvenMinutesBits(sch);
    AsWrittenAgrees(sch, Clock(0, 0, 0), 1);
  }

  /** From midnight, `ThirdSeconds` (every third second) next fires after three seconds, by either computation. */
  lemma StepSecondFromMidnight()
    ensures Parse("*/3 * *").status == Ok
    ensures NextInterval(Parse("*/3 * *").sch, Clock(0, 0, 0)) == 3
    ensures NextIntervalFixed(Parse("*/3 * *").sch, Clock(0, 0, 0)) == 3
  {
    ParseThirdSeconds();
    var sch := DenoteSpec(ThirdSeconds);
    ThirdSecondsBits(sch);
    AsWrittenAgrees(sch, Clock(0, 0, 0), 3);
  }

  // ---------------------------------------------------------------------------
  // Where the source's answer is not the earliest firing time

  /**
   `* 2 *` from midnight fires at 00:02:00, 120 seconds on. The source moves the
   minute to 2 but keeps the second it found for minute 0, and answers 121.
   */
  lemma CarryKeepsSecond()
    ensures Parse("* 2 *").status == Ok
    ensures NextInterval(Parse("* 2 *").sch, Clock(0, 0, 0)) == 121
    ensures NextIntervalFixed(Parse("* 2 *").sch, Clock(0, 0, 0)) == 120
  {
    ParseMinuteTwo();
    var sch := DenoteSpec(MinuteTwo);
    MinuteTwoBits(sch);
    CarryAsWritten(sch);
    CarryFixed(sch);
  }

  lemma CarryAsWritten(sch: Schedule)
    requires WellSized(sch) && sch.sec[1] && sch.hour[0]
    requires sch.min[2] && !sch.min[0] && !sch.min[1]
    ensures NextInterval(sch, Clock(0, 0, 0)) == 121
  {
    FoundAt(sch.sec, 1, 1);
    FoundAt(sch.hour, 0, 0);
    FoundAt(sch.min, 0, 2);
    NoWrapNoTruncation(sch, Clock(0, 0, 0));
  }

  lemma CarryFixed(sch: Schedule)
    requires WellSized(sch) && sch.sec[0] && sch.hour[0]
    requires sch.min[2] && !sch.min[0] && !sch.min[1]
    ensures NextIntervalFixed(sch, Clock(0, 0, 0)) == 120
  {
    assert Valid(sch);
    FoundAt(sch.min, 1, 2);
    FoundAt(sch.sec, 0, 0);
    assert NextFire(sch, Clock(0, 0, 0)) == Clock(0, 2, 0);
  }

  /**
   `0 0 0` from 01:00:00 fires at midnight, 82800 seconds on. The source finds no
   second after 0 and no hour from 1 on, takes 255 for both, and answers
   255 * 3600 + 255 - 3600.
   */
  lemma NotFoundBecomesField()
    ensures Parse("0 0 0").status == Ok
    ensures NextInterval(Parse("0 0 0").sch, Clock(1, 0, 0)) == 914655
    ensures NextIntervalFixed(Parse("0 0 0").sch, Clock(1, 0, 0)) == 82800
  {
    ParseAllZero();
    var sch := DenoteSpec(AllZero);
    AllZeroBits(sch);
    NotFoundAsWritten(sch);
    NotFoundFixed(sch);
  }

  lemma NotFoundAsWritten(sch: Schedule)
    requires WellSized(sch) && sch.min[0]
    requires forall i | 0 < i < SecWidth :: !sch.sec[i]
    requires forall i | 0 < i < HourWidth :: !sch.hour[i]
    ensures NextInterval(sch, Clock(1, 0, 0)) == 914655
  {
    NoneFrom(sch.sec, 1);
    NoneFrom(sch.hour, 1);
    FoundAt(sch.min, 0, 0);
    NoWrapNoTruncation(sch, Clock(1, 0, 0));
  }

  lemma NotFoundFixed(sch: Schedule)
    requires WellSized(sch) && sch.sec[0] && sch.min[0] && sch.hour[0]
    requires forall i | 0 < i < SecWidth :: !sch.sec[i]
    requires forall i | 0 < i < MinWidth :: !sch.min[i]
    requires forall i | 0 < i < HourWidth :: !sch.hour[i]
    ensures NextIntervalFixed(sch, Clock(1, 0, 0)) == 82800
  {
    assert Valid(sch);
    NoneFrom(sch.sec, 1);
    NoneFrom(sch.min, 1);
    NoneFrom(sch.hour, 2);
    FoundAt(sch.hour, 0, 0);
    FoundAt(sch.min, 0, 0);
    FoundAt(sch.sec, 0, 0);
    assert NextFire(sch, Clock(1, 0, 0)) == Clock(0, 0, 0);
  }

  /**
   `ThirdSeconds` from 00:00:58 fires at 00:01:00, two seconds on. The source finds
   no multiple of 3 after second 58, takes 255 for the second, keeps minute 0, and
   answers 255 - 58.
   */
  lemma StepSecondAtMinuteEnd()
    ensures Parse("*/3 * *").status == Ok
    ensures NextInterval(Parse("*/3 * *").sch, Clock(0, 0, 58)) == 197
    ensures NextIntervalFixed(Parse("*/3 * *").sch, Clock(0, 0, 58)) == 2
  {
    ParseThirdSeconds();
    var sch := DenoteSpec(ThirdSeconds);
    ThirdSecondsBits(sch);
    MinuteEndAsWritten(sch);
    MinuteEndFixed(sch);
  }

  lemma MinuteEndAsWritten(sch: Schedule)
    requires WellSized(sch) && !sch.sec[59] && sch.min[0] && sch.hour[0]
    ensures NextInterval(sch, Clock(0, 0, 58)) == 197
  {
    NoneFrom(sch.sec, 59);
    FoundAt(sch.min, 0, 0);
    FoundAt(sch.hour, 0, 0);
    NoWrapNoTruncation(sch, Clock(0, 0, 58));
  }

  lemma MinuteEndFixed(sch: Schedule)
    requires WellSized(sch) && sch.sec[0] && !sch.sec[59] && sch.min[0] && sch.min[1] && sch.hour[0]
    ensures NextIntervalFixed(sch, Clock(0, 0, 58)) == 2
  {
    assert Valid(sch);
    NoneFrom(sch.sec, 59);
    FoundAt(sch.min, 1, 1);
    FoundAt(sch.sec, 0, 0);
    assert NextFire(sch, Clock(0, 0, 58)) == Clock(0, 1, 0);
  }

  /**
   `60 * *`: the second field's value check admits 60, `bitset<60>::set(60)` throws
   `std::out_of_range` out of `parse`; with the bound at 59 the parse just fails.
   */
  lemma WidthSecondThrows()
    ensures Parse("60 * *").status == OutOfRange
    ensures ParseStrict("60 * *").status == Fail
  {
    var ws := ["60", "*", "*"];
    assert Join(ws, ' ') == "60 * *";
    TokensOfWords(ws, ' ');
    ReadsBackSixty();
    PieceAlone("60", {','});
    WidthValueThrows("60", [], SecWidth, SecWidth, Zeros(SecWidth));
    assert ["60"] + [] == ["60"];
    ParseStrictAgrees("60 * *");
  }

  /**
   `0-60`: the range check admits 60 as the upper end, so the loop throws on
   reaching it; with the bound at 59 the term fails and adds nothing.
   */
  lemma RangeToWidthThrows(b: Bits)
    requires |b| == SecWidth
    ensures ApplyTerm("0-60", SecWidth, SecWidth, b).Stop?
    ensures ApplyTerm("0-60", SecWidth, SecWidth, b).status == OutOfRange
    ensures ApplyTerm("0-60", SecWidth, SecWidth - 1, b) == Stop(Fail, b)
  {
    ZeroSixtyText();
    assert RangeTerm("0-60", SecWidth, SecWidth, b) == SetRange(b, 0, 60);
    assert RangeTerm("0-60", SecWidth, SecWidth - 1, b) == Stop(Fail, b);
  }

  lemma ZeroSixtyText()
    ensures '*' !in "0-60" && '-' in "0-60"
    ensures SplitAny("0-60", {'-'}) == ["0", "60"]
    ensures Atoi("0") == 0 && Atoi("60") == 60
  {
    assert AllDigits("0") && AllDigits("60");
    assert "0" + "-" + "60" == "0-60";
    SpanChars("0", "60");
    SpanSplit("0", "60");
    assert Decimal(0) == "0";
    DecimalAlone(0);
    assert Decimal(60) == "60";
    DecimalAlone(60);
  }

  /** `61 * *`: the second field fails its value check, so `parse` fails with every map cleared. */
  lemma ParseSixtyOneFails()
    ensures Parse("61 * *") == Parsed(Fail, Cleared())
  {
    var ws := ["61", "*", "*"];
    assert Join(ws, ' ') == "61 * *";
    TokensOfWords(ws, ' ');
    ReadsBackSixtyOne();
    PieceAlone("61", {','});
    BadValueFails("61", [], SecWidth, SecWidth, Zeros(SecWidth));
    assert ["61"] + [] == ["61"];
  }

  /** `atoi("61")` is 61. */
  lemma ReadsBackSixtyOne()
    ensures Atoi("61") == 61
  {
    assert Decimal(6) == "6";
    assert Decimal(61) == "61";
    AtoiDecimal(61, "");
    assert "61" + "" == "61";
  }

  /** `atoi("60")` is 60. */
  lemma ReadsBackSixty()
    ensures Atoi("60") == 60
  {
    assert Decimal(6) == "6";
    assert Decimal(60) == "60";
    AtoiDecimal(60, "");
    assert "60" + "" == "60";
  }

  /**
   `0 61 *`: the minute field fails after the second field succeeded; `parse`
   fails, and the second map keeps position 0 because nothing rolls it back.
   */
  lemma ParseKeepsEarlierField()
    ensures Parse("0 61 *") == Parsed(Fail, Schedule(Zeros(SecWidth)[0 := true], Zeros(MinWidth), Zeros(HourWidth)))
  {
    ZeroSixtyOneStarFields();
    SecondZeroField();
    MinuteSixtyOneFails();
    calc {
      Parse("0 61 *");
      ParseFields("0", "61", "*", false);
      Assemble(ParseSubtime("0", SecWidth, SecWidth, Zeros(SecWidth)),
               ParseSubtime("61", MinWidth, MinWidth, Zeros(MinWidth)),
               ParseSubtime("*", HourWidth, HourWidth, Zeros(HourWidth)));
    }
  }

  lemma ZeroSixtyOneStarFields()
    ensures Tokens("0 61 *") == ["0", "61", "*"]
  {
    var ws := ["0", "61", "*"];
    assert Join(ws, ' ') == "0 61 *";
    TokensOfWords(ws, ' ');
  }

  lemma SecondZeroField()
    ensures ParseSubtime("0", SecWidth, SecWidth, Zeros(SecWidth)) == Field(Ok, Zeros(SecWidth)[0 := true])
  {
    FieldRoundTrip([At(0)], SecWidth, SecWidth, Zeros(SecWidth));
    assert RenderField([At(0)]) == "0";
    SingleField(0, SecWidth);
  }

  lemma MinuteSixtyOneFails()
    ensures ParseSubtime("61", MinWidth, MinWidth, Zeros(MinWidth)) == Field(Fail, Zeros(MinWidth))
  {
    ReadsBackSixtyOne();
    PieceAlone("61", {','});
    BadValueFails("61", [], MinWidth, MinWidth, Zeros(MinWidth));
    assert ["61"] + [] == ["61"];
  }
}

=== FILE: split.dfy ===
/**
 `boost::split(out, s, boost::is_any_of(seps))` without token compression, and
 `std::string::find` for a single character.
 */
module Split {

  predicate NoneOf(s: string, seps: set<char>) {
    forall k | 0 <= k < |s| :: s[k] !in seps
  }

  /** The number of characters of `s` that belong to `seps`. */
  function CountOf(s: string, seps: set<char>): nat {
    if |s| == 0 then 0 else (if s[0] in seps then 1 else 0) + CountOf(s[1..], seps)
  }

  /**
   The pieces of `s` between separators: n separators give n + 1 pieces, some of
   which may be empty (an empty input gives one empty piece).
   */
  function SplitAny(s: string, seps: set<char>): (r: seq<string>)
    ensures |r| == CountOf(s, seps) + 1
    ensures forall i | 0 <= i < |r| :: NoneOf(r[i], seps)
  {
    if |s| == 0 then [""]
    else
      var rest := SplitAny(s[1..], seps);
      if s[0] in seps then [""] + rest
      else
        assert NoneOf([s[0]] + rest[0], seps) by {
          assert forall k | 1 <= k < 1 + |rest[0]| :: ([s[0]] + rest[0])[k] == rest[0][k - 1];
        }
        [[s[0]] + rest[0]] + rest[1..]
  }

  /** The pieces glued back together with `sep` between neighbours. */
  function Join(ps: seq<string>, sep: char): string
    requires |ps| > 0
  {
    if |ps| == 1 then ps[0] else ps[0] + [sep] + Join(ps[1..], sep)
  }

  /** Splitting on a single character and joining again gives the input back. */
  lemma {:induction false} JoinSplit(s: string, sep: char)
    ensures Join(SplitAny(s, {sep}), sep) == s
  {
    if |s| > 0 {
      var rest := SplitAny(s[1..], {sep});
      JoinSplit(s[1..], sep);
      if s[0] == sep {
        assert SplitAny(s, {sep}) == [""] + rest;
        assert ([""] + rest)[1..] == rest;
      } else {
        var r := SplitAny(s, {sep});
        assert r == [[s[0]] + rest[0]] + rest[1..];
        if |rest| == 1 {
          assert r == [[s[0]] + rest[0]];
        } else {
          assert r[1..] == rest[1..];
          assert Join(rest, sep) == rest[0] + [sep] + Join(rest[1..], sep);
        }
      }
    }
  }

  /**
   Joining pieces that contain no separator with one of the separators and
   splitting again gives the same pieces back.
   */
  lemma {:induction false} SplitJoin(ps: seq<string>, sep: char, seps: set<char>)
    requires |ps| > 0 && sep in seps
    requires forall i | 0 <= i < |ps| :: NoneOf(ps[i], seps)
    ensures SplitAny(Join(ps, sep), seps) == ps
  {
    if |ps| == 1 {
      PieceAlone(ps[0], seps);
    } else {
      SplitJoin(ps[1..], sep, seps);
      PieceThenSeparator(ps[0], [sep] + Join(ps[1..], sep), seps);
      assert ([sep] + Join(ps[1..], sep))[1..] == Join(ps[1..], sep);
      assert Join(ps, sep) == ps[0] + ([sep] + Join(ps[1..], sep));
    }
  }

  lemma {:induction false} PieceAlone(p: string, seps: set<char>)
    requires NoneOf(p, seps)
    ensures SplitAny(p, seps) == [p]
  {
    if |p| > 0 {
      PieceAlone(p[1..], seps);
      assert [p[0]] + p[1..] == p;
    }
  }

  /** A separator-free piece followed by a separator and a tail `t` is split off as the first piece. */
  lemma {:induction false} PieceThenSeparator(p: string, t: string, seps: set<char>)
    requires NoneOf(p, seps) && |t| > 0 && t[0] in seps
    ensures SplitAny(p + t, seps) == [p] + SplitAny(t[1..], seps)
  {
    if |p| == 0 {
      assert p + t == t;
    } else {
      PieceThenSeparator(p[1..], t, seps);
      assert (p + t)[1..] == p[1..] + t;
      assert [p[0]] + p[1..] == p;
    }
  }

  /**
   Any separator cuts the text in two: the pieces of the whole are the pieces
   before it followed by the pieces after it.
   */
  lemma {:induction false} SplitAt(a: string, c: char, b: string, seps: set<char>)
    requires c in seps
    ensures SplitAny(a + [c] + b, seps) == SplitAny(a, seps) + SplitAny(b, seps)
    decreases |a|
  {
    var x := a + [c] + b;
    if |a| == 0 {
      assert x == [c] + b && x[1..] == b;
    } else {
      assert x[0] == a[0] && x[1..] == a[1..] + [c] + b;
      var front, back := SplitAny(a[1..], seps), SplitAny(b, seps);
      var rest := SplitAny(x[1..], seps);
      assert rest == front + back by {
        SplitAt(a[1..], c, b, seps);
      }
      if a[0] in seps {
        calc {
          SplitAny(x, seps);
          [""] + rest;
          [""] + (front + back);
          { AppendAssoc([""], front, back); }
          ([""] + front) + back;
          SplitAny(a, seps) + back;
        }
      } else {
        assert rest[0] == front[0] && rest[1..] == front[1..] + back;
        calc {
          SplitAny(x, seps);
          [[a[0]] + rest[0]] + rest[1..];
          [[a[0]] + front[0]] + (front[1..] + back);
          { AppendAssoc([[a[0]] + front[0]], front[1..], back); }
          ([[a[0]] + front[0]] + front[1..]) + back;
          SplitAny(a, seps) + back;
        }
      }
    }
  }

  lemma AppendAssoc(x: seq<string>, y: seq<string>, z: seq<string>)
    ensures x + (y + z) == (x + y) + z
  {
  }

  /** `std::string::find(c)` when `c` occurs: the position of its first occurrence. */
  function IndexOf(s: string, c: char): (i: nat)
    requires c in s
    ensures i < |s| && s[i] == c
    ensures forall k | 0 <= k < i :: s[k] != c
  {
    if s[0] == c then 0 else 1 + IndexOf(s[1..], c)
  }
}

=== FILE: strutil.dfy ===
/** `StrUtil::trim_whitespace`: strip `isspace` characters from both ends of a string. */
module StrUtil {
  import opened CLib

  predicate AllSpace(s: string) {
    forall k | 0 <= k < |s| :: IsSpace(s[k])
  }

  /** The number of `isspace` characters at the back of `s`. */
  function TrailingSpaces(s: string): (n: nat)
    ensures n <= |s|
    ensures forall k | |s| - n <= k < |s| :: IsSpace(s[k])
    ensures n < |s| ==> !IsSpace(s[|s| - 1 - n])
  {
    if |s| == 0 || !IsSpace(s[|s| - 1]) then 0 else 1 + TrailingSpaces(s[..|s| - 1])
  }

  /**
   The trimmed string: the slice of `s` from its first to its last non-space
   character. Everything cut away is whitespace, nothing inside is touched, and
   the result neither starts nor ends with whitespace.
   */
  function Trim(s: string): (t: string)
    ensures var lo := LeadingSpaces(s);
            lo + |t| <= |s| && t == s[lo..lo + |t|]
            && AllSpace(s[..lo]) && AllSpace(s[lo + |t|..])
    ensures |t| > 0 ==> !IsSpace(t[0]) && !IsSpace(t[|t| - 1])
    ensures |t| == 0 <==> AllSpace(s)
  {
    var lo := LeadingSpaces(s);
    var rest := s[lo..];
    var t := rest[..|rest| - TrailingSpaces(rest)];
    TrimSlice(s, lo, |rest| - TrailingSpaces(rest));
    t
  }

  /** The pieces of `s` around the kept middle `s[lo..lo + n]` are whitespace. */
  lemma TrimSlice(s: string, lo: nat, n: nat)
    requires lo == LeadingSpaces(s)
    requires n == |s[lo..]| - TrailingSpaces(s[lo..])
    ensures lo + n <= |s| && s[lo..][..n] == s[lo..lo + n]
    ensures AllSpace(s[..lo]) && AllSpace(s[lo + n..])
    ensures n > 0 ==> !IsSpace(s[lo]) && !IsSpace(s[lo + n - 1])
    ensures n == 0 <==> AllSpace(s)
  {
    var rest := s[lo..];
    assert AllSpace(s[lo + n..]) by {
      assert s[lo + n..] == rest[n..];
    }
    TrimEdges(s, lo, n);
  }

  /** The kept middle starts and ends on a non-space, and is empty only for an all-space `s`. */
  lemma TrimEdges(s: string, lo: nat, n: nat)
    requires lo == LeadingSpaces(s)
    requires n == |s[lo..]| - TrailingSpaces(s[lo..])
    ensures n > 0 ==> lo + n <= |s| && !IsSpace(s[lo]) && !IsSpace(s[lo + n - 1])
    ensures n == 0 <==> AllSpace(s)
  {
    var rest := s[lo..];
    if lo < |s| {
      assert rest[0] == s[lo];
    }
    if n > 0 {
      assert s[lo + n - 1] == rest[n - 1];
    }
  }

  /**
   The source's in-place trim: one loop counts the leading blanks and erases them,
   a second loop walks back over the trailing blanks and erases them; the return
   value is how many characters went.
   */
  method TrimWhitespace(str: string) returns (trimmed: string, removed: nat)
    ensures trimmed == Trim(str)
    ensures removed == |str| - |trimmed|
  {
    var index := 0;
    while index < |str| && IsSpace(str[index])
      invariant 0 <= index <= |str|
      invariant forall k | 0 <= k < index :: IsSpace(str[k])
    {
      index := index + 1;
    }
    assert index == LeadingSpaces(str);
    trimmed := str[index..];
    index := |trimmed|;
    while index > 0 && IsSpace(trimmed[index - 1])
      invariant 0 <= index <= |trimmed|
      invariant forall k | index <= k < |trimmed| :: IsSpace(trimmed[k])
    {
      index := index - 1;
    }
    assert index == |trimmed| - TrailingSpaces(trimmed);
    trimmed := trimmed[..index];
    removed := |str| - |trimmed|;
  }

  /** Trimming twice is trimming once: an already-trimmed string loses nothing. */
  lemma TrimIdempotent(s: string)
    ensures Trim(Trim(s)) == Trim(s)
  {
    var t := Trim(s);
    if |t| > 0 {
      TrimKeepsClean(t);
    } else {
      assert Trim(t) == "";
    }
  }

  /** A string with no whitespace at either end is its own trim. */
  lemma TrimKeepsClean(s: string)
    requires |s| > 0 ==> !IsSpace(s[0]) && !IsSpace(s[|s| - 1])
    ensures Trim(s) == s
  {
    if |s| > 0 {
      assert LeadingSpaces(s) == 0;
      var t := Trim(s);
      assert t == s[..|t|];
    }
  }
}
